=== FILE: README.md ===
# invoice-gen core, modelled in Dafny

This project models the core of invoice-gen, a desktop client for the
invoice-generator.com rendering service. The core is
`invoice_generator/invoice_api.py` plus the two `utils.py` files.

`invoice_api.py` holds the invoice domain model:
- line items that check themselves when built;
- display flags and custom fields;
- the `Invoice` aggregate, with its derived money values and its *wire representation*. That is the JSON object posted to the service, and it leaves out every zero, blank or default value.

It also holds the API client:
- the default output file name;
- the endpoint of each format;
- the mapping of every outcome of the request and of the file write to the message the caller gets back;
- `validate_invoice`, which collects every problem of an invoice;
- the supported currency and language codes.

The two `utils.py` files sanitise file names and turn date values into ISO strings. Both files share the replacement loop and `prepare_for_json_serialization` line for line, so module `UtilsCommon` models that code once. Each file's own length cap is modelled separately:
- `PackageUtils` models the package version, which keeps the last extension when it truncates;
- `RootUtils` models the top-level version, which cuts flat at 50 characters.

Modules:

| module | file | what it is |
|---|---|---|
| `Wrappers` | wrappers.dfy | `Option` and `Result` |
| `Text` | text.dfy | Python `str.strip` and `isspace`; decimal digits, `str(n)` |
| `Dates` | dates.dfy | `datetime.date` as (year, month, day), its order, its `YYYY-MM-DD` text (the ISO 8601 calendar date, extended format) |
| `Json` | json.dfy | JSON values |
| `UtilsCommon` | utils_common.dfy | the replacement loop and `prepare_for_json_serialization` |
| `PackageUtils` | package_utils.dfy | `sanitize_filename` of invoice_generator/utils.py |
| `RootUtils` | root_utils.dfy | `sanitize_filename` of utils.py |
| `InvoiceModel` | invoice.dfy | items, display flags, custom fields, the `Invoice` class, `to_dict` |
| `InvoiceApi` | api.dfy | the client class `InvoiceGeneratorApi` and its operations |

Modelling choices:
- **Values and objects.** `Invoice` is a class, because the program sets its fields in place and appends to its two lists. Items, display flags and custom fields are datatypes.
- **Failing constructors.** A constructor that raises `ValueError` becomes a function or method that returns a `Result` carrying the exact message.
- **Items.** `InvoiceItem` is the subset of items that passed their checks.
- **The wire representation.** It is specified once, as a table of eighteen (key, optional value) entries in the order `to_dict` visits them. `Invoice.Wire()` is the map of the entries that are present. The imperative `ToDict` builds the map key by key and is proved equal to `Wire()`. The lemmas about which keys appear are proved on `Wire()`.
- **Money.** Amounts are `real`, so `max(0, …)` clamps and sums are exact.
- **Transport and disk.** The HTTP exchange and the file write are function parameters of the client's methods:
  - `post` maps a request to a `Transport` outcome;
  - `write` maps a path and bytes to a `WriteOutcome`.

Behaviour of the code worth knowing:
- **"number" on the wire.** It is sent whenever it is a non-empty string, and it is not stripped. A number of only spaces is therefore sent. The default file name, by contrast, uses the stripped number and ignores a blank one.
- **"currency" on the wire.** It is left out when it is "USD", and also when it is the empty string.
- **`total_cost`.** The discount is subtracted only when it is set and non-zero. This gives the same value as subtracting any set discount.
- **Status codes.** Only status 200 counts as success. Any other status, 2xx included, gives the "Error <code>: <body>" message.

## Model

| member | source | states |
|---|---|---|
| InvoiceModel.NewItem | invoice_generator/invoice_api.py:48-56 | building an item succeeds exactly when the name is not blank after stripping, quantity > 0, unit cost >= 0 and a given discount >= 0; otherwise it fails with the message of the first failed check, in source order |
| InvoiceModel.TotalCost | invoice_generator/invoice_api.py:58-62 | the cost is max(0, quantity × unit cost − discount), an absent discount counting as 0; it is never negative and, for a checked item, never above quantity × unit cost |
| InvoiceModel.ItemToDict | invoice_generator/invoice_api.py:64-74 | name, quantity and unit_cost are always present; "description" exactly when the description is a non-empty string; "discount" exactly when one is set, 0.0 included |
| InvoiceModel.ItemToDictKeys | invoice_generator/invoice_api.py:64-74 | an item's object has no key besides name, quantity, unit_cost, description and discount |
| InvoiceModel.ItemRoundTrip | invoice_generator/invoice_api.py:64-74 | an item read back from its wire object is the same item, except that an empty description comes back as none |
| InvoiceModel.WireItemCostMatches | invoice_generator/invoice_api.py:58-74 | the cost recomputed from an item's wire object alone equals the item's `total_cost` |
| InvoiceModel.DisplayToDict | invoice_generator/invoice_api.py:84-90 | the display object has exactly the keys tax, discounts and shipping |
| InvoiceModel.DisplayRoundTrip | invoice_generator/invoice_api.py:84-90 | the three tax settings (false, true, "%") stay distinct, so the flags read back unchanged |
| InvoiceModel.CustomFieldToDict | invoice_generator/invoice_api.py:36-37 | a custom field's object has exactly the keys name and value |
| InvoiceModel.CustomFieldRoundTrip | invoice_generator/invoice_api.py:36-37 | a custom field's object reads back as the same field |
| InvoiceModel.PartiesError | invoice_generator/invoice_api.py:121-126 | there is no error exactly when sender and recipient are both non-blank after stripping; a blank sender is reported first, and otherwise a blank recipient |
| InvoiceModel.CreateInvoice | invoice_generator/invoice_api.py:321-323 | fails exactly when a party is blank, with the `__post_init__` message; otherwise a fresh invoice with the two parties, no items or custom fields, every other field at its dataclass default, and total and balance due 0 |
| InvoiceModel.Invoice.constructor | invoice_generator/invoice_api.py:96-119 | the dataclass defaults: empty lists, no number or dates, currency "USD", zero money fields, no optional strings, display flags (%, false, false) |
| InvoiceModel.Invoice.AddItem | invoice_generator/invoice_api.py:128-130 | the item is appended at the end and nothing else changes; the subtotal grows by exactly the item's cost |
| InvoiceModel.Invoice.AddCustomField | invoice_generator/invoice_api.py:132-134 | the field (name, value) is appended at the end; the items and every scalar field are unchanged |
| InvoiceModel.SumCostsAppend | invoice_generator/invoice_api.py:136-138 | appending an item adds its cost to the sum of costs |
| InvoiceModel.Invoice.Subtotal | invoice_generator/invoice_api.py:136-138 | the subtotal is never negative |
| InvoiceModel.Invoice.Total | invoice_generator/invoice_api.py:140-144 | the total is max(0, subtotal + tax + shipping − discounts): at least that sum and at least 0, and equal to one of them |
| InvoiceModel.Invoice.BalanceDue | invoice_generator/invoice_api.py:146-148 | the balance due is max(0, total − amount paid), and never more than the total when the amount paid is not negative |
| InvoiceModel.Invoice.WireTableKeys | invoice_generator/invoice_api.py:150-188 | the table has one entry per key that `to_dict` can emit, under those keys, in the order `to_dict` adds them |
| InvoiceModel.Invoice.ToDict | invoice_generator/invoice_api.py:150-189 | the map built key by key is exactly the present entries of the table |
| InvoiceModel.Invoice.WireLookup | invoice_generator/invoice_api.py:152-188 | each key is in the wire map exactly when its table entry is present, and then with that entry's value |
| InvoiceModel.Invoice.WireAlwaysPresent | invoice_generator/invoice_api.py:152-157 | from, to, items and fields are always sent, with the parties, the items' objects and the display object |
| InvoiceModel.Invoice.WireMoney | invoice_generator/invoice_api.py:169-176 | tax, discounts, shipping and amount_paid are each sent exactly when strictly positive, with that amount |
| InvoiceModel.Invoice.WireDates | invoice_generator/invoice_api.py:178-181 | date and due_date are each sent exactly when set, as YYYY-MM-DD |
| InvoiceModel.Invoice.WireTexts | invoice_generator/invoice_api.py:159-185 | currency exactly when neither "USD" nor empty; number, payment_terms, logo, notes, terms and ship_to exactly when set and non-empty; each sent text is the field's value, unstripped |
| InvoiceModel.Invoice.WireCustomFields | invoice_generator/invoice_api.py:187-188 | custom_fields is sent exactly when there are some, as their objects in order |
| InvoiceModel.Invoice.WireKeysKnown | invoice_generator/invoice_api.py:150-189 | no key outside the eighteen above is ever sent |
| InvoiceModel.WireSubtotalMatches | invoice_generator/invoice_api.py:136-138 | summing the costs recomputed from the wire list of items gives the sum of the items' costs |
| InvoiceModel.Invoice.WireItemsGiveTotal | invoice_generator/invoice_api.py:136-155 | the subtotal recomputed from the serialised items is the invoice's subtotal, and with no tax, shipping or discounts it is the total |
| Text.BlankIffAllSpace | invoice_generator/invoice_api.py:49 | a string is blank after `strip()` exactly when every character is whitespace |
| Dates.IsoRoundTrip | invoice_generator/invoice_api.py:178-181 | the `YYYY-MM-DD` text of a valid date parses back to that date |
| Dates.ParseIsoCanonical | invoice_generator/invoice_api.py:178-181 | every text that parses as a date is that date's `YYYY-MM-DD` text |
| Dates.IsoFormatInjective | invoice_generator/invoice_api.py:178-181 | two valid dates with the same text are the same date |
| Dates.BeforeStrictTotal | invoice_generator/invoice_api.py:305 | the date order is irreflexive, transitive and total |
| InvoiceApi.Endpoint | invoice_generator/invoice_api.py:265-267 | every URL starts with the base URL, and it is the base URL exactly for a PDF (an e-invoice adds "/ubl") |
| InvoiceApi.FileExtension | invoice_generator/invoice_api.py:242-259 | the default extension has three characters, no dot, no invalid character |
| InvoiceApi.FilenameShape | invoice_generator/invoice_api.py:216-229 | for either extension ("pdf", "xml"), the default file name starts with "invoice", ends with "." and the extension and is 11 to 50 characters long; when the raw name fits in 50 characters it is that name with invalid characters replaced |
| InvoiceApi.GenerateFilename | invoice_generator/invoice_api.py:216-229 | the default file name is at most 50 characters long and holds no invalid character |
| InvoiceApi.DefaultFilename | invoice_generator/invoice_api.py:216-229 | an invoice's default file name for either format starts with "invoice", ends with "." and the format's extension and is 11 to 50 characters long; it is exactly "invoice." and the extension when the number is absent or blank |
| InvoiceApi.GeneratedFilename | invoice_generator/invoice_api.py:216-229 | the same shape, and the same exact name without a usable number, for any three-character extension with no dot, no invalid character and no trailing whitespace |
| InvoiceApi.FilenameWithoutNumber | invoice_generator/invoice_api.py:216-229 | without a number, or with a blank one, the default file name is exactly "invoice." and the extension |
| InvoiceApi.SessionHeaders | invoice_generator/invoice_api.py:207-214 | the headers `_setup_headers` adds: JSON content type and User-Agent "InvoiceGenerator-Python-Client/1.0" always, `Authorization: Bearer <key>` exactly when a non-empty key is configured, and no other header is added |
| InvoiceApi.InvoiceGeneratorApi.constructor | invoice_generator/invoice_api.py:196-205 | the client keeps its key and its session carries the headers above |
| InvoiceApi.Outcome | invoice_generator/invoice_api.py:271-286 | a file is saved exactly when the answer is 200 and the write succeeds, and then the message is "Invoice saved as <path>"; every other outcome gives a message starting with "Error" and saves nothing; a status other than 200 gives "Error <code>: <body>" |
| InvoiceApi.ServerErrorScenario | invoice_generator/invoice_api.py:277-278 | an answer 500 with body "server error" gives "Error 500: server error" and saves nothing |
| Text.NatToStringInjective | invoice_generator/invoice_api.py:278 | the status code written in the message identifies the code |
| InvoiceApi.InvoiceGeneratorApi.GenerateInvoice | invoice_generator/invoice_api.py:261-286 | posts the invoice's wire map with the session headers to the format's endpoint, and returns the message and saved file that `Outcome` gives for the answer |
| InvoiceApi.InvoiceGeneratorApi.GeneratePdf | invoice_generator/invoice_api.py:231-244 | the given path, or else the default name with extension "pdf"; then the outcome of a request to the base URL |
| InvoiceApi.InvoiceGeneratorApi.GenerateUbl | invoice_generator/invoice_api.py:246-259 | the given path, or else the default name with extension "xml"; then the outcome of a request to the base URL + "/ubl" |
| InvoiceApi.InvoiceGeneratorApi.ValidateInvoice | invoice_generator/invoice_api.py:288-309 | each message appears exactly when its condition holds (no items; both dates set and due date before date; amount paid above total), in that order; the list holds no other message and is empty exactly when none holds |
| InvoiceApi.ValidatedBalance | invoice_generator/invoice_api.py:146-148 | for an invoice whose amount paid is between 0 and the total, as validation demands, the balance due is exactly total − amount paid |
| InvoiceApi.InvoiceGeneratorApi.GetSupportedCurrencies | invoice_generator/invoice_api.py:311-313 | the six codes of `Currency` in order: distinct, three letters each, the default currency first |
| InvoiceApi.InvoiceGeneratorApi.GetSupportedLanguages | invoice_generator/invoice_api.py:315-317 | the five codes of `Language` in order: distinct, two letters each |
| InvoiceApi.WidgetCost | invoice_generator/invoice_api.py:58-62 | 2 at 10.0 less a discount of 5.0 costs 15.0 |
| InvoiceApi.WidgetScenario | invoice_generator/invoice_api.py:128-148 | an invoice with that one item and 10.0 paid has subtotal and total 15.0 and balance due 5.0 |
| UtilsCommon.ReplaceInvalidChars | invoice_generator/utils.py:12-15 | the name keeps its length; each position keeps its character unless it is one of `< > : " / \ \| ? *`, which becomes '_'; no invalid character remains (utils.py:8-11 is the same loop) |
| UtilsCommon.ReplacedUnchanged | invoice_generator/utils.py:14-15 | a name without invalid characters is left as it is |
| UtilsCommon.PrepareForJson | invoice_generator/utils.py:28-38 | the keys are kept; a date, datetime or time value (within the ranges Python's `datetime` types allow) becomes its ISO string; every other value is copied untouched, so no value with `isoformat` is left (utils.py:15-24 is the same function) |
| PackageUtils.LastDot | invoice_generator/utils.py:19-20 | there is a split point exactly when the name has a '.', and it is the last '.' |
| PackageUtils.Fit | invoice_generator/utils.py:17-25 | the capped name has at most 50 characters, all taken from the name |
| PackageUtils.SanitizeFilename | invoice_generator/utils.py:7-25 | the result is the replaced, stripped and capped name: at most 50 characters, no invalid character |
| PackageUtils.Sanitize | invoice_generator/utils.py:7-26 | the sanitised name is at most 50 characters long and no invalid character survives |
| PackageUtils.FitShortUnchanged | invoice_generator/utils.py:18-25 | a stripped name of at most 50 characters is returned unchanged |
| PackageUtils.FitKeepsExtension | invoice_generator/utils.py:19-23 | a longer name whose last extension is shorter than 49 characters becomes a prefix of its base name, '.', and that extension: exactly 50 characters, same extension |
| PackageUtils.FitFlatCut | invoice_generator/utils.py:19-24 | a longer name without a '.', or whose extension leaves no room for a base, becomes its first 50 characters |
| PackageUtils.LastDotOfJoin | invoice_generator/utils.py:20 | `rsplit('.', 1)` of base + "." + ext, with no dot in ext, splits at that dot |
| PackageUtils.SanitizeKeepsPdf | invoice_generator/utils.py:7-25 | a clean name ending in ".pdf" still ends in ".pdf" once sanitised, and is exactly 50 characters when it was longer |
| RootUtils.Sanitize | utils.py:12 | the result is the first min(50, n) characters of the replaced and stripped name of length n |
| RootUtils.SanitizeFilename | utils.py:7-12 | the loop, then strip and `[:50]`: at most 50 characters, no invalid character |
| RootUtils.AgreesWithPackageVersion | utils.py:12 | on names of at most 50 characters after stripping, and on longer ones without a '.', both sanitisers agree |
| RootUtils.FlatCutDropsExtension | utils.py:12 | a long name whose only '.' begins its final ".pdf" loses every '.' here, while the package version keeps ".pdf" |

## Left out

- HTTP transport: `requests.Session`, the 30-second timeout and the exception classes are not modelled. The request's outcome is the parameter `post`. Timeout, connection failure and other request errors are three cases of `Transport`. The exception that is both a timeout and a connection error is the timeout case, as Python's first matching `except` clause makes it.
- The file write is the parameter `write`. A write that fails after creating or truncating the file leaves no trace in the model; the model records a saved file only on success.
- `InvoiceGeneratorApi.ValidateInvoice`: the `try: invoice.to_dict()` step contributes no error, because `to_dict` never raises `ValueError` on well-typed fields.
- IEEE-754 floating point: money is exact `real`, so rounding and the float sum's order are not modelled.
- JSON key order: the wire representation is a map, so the insertion order of `to_dict` is not part of its value (`ToDict` still adds the keys in the source's order).
- Python's dynamic typing: fields set by the form to values of other types, and `to_dict` on such values, are not modelled. Every field has the type its annotation names.
- `Dates.IsoFormat`: years below 1000 are written with four digits. CPython's `strftime("%Y")` does this on some platforms and not on others.
- `UtilsCommon.PrepareForJson`: only `date`, `datetime` and naive `time` values are modelled as having `isoformat`. Time zones and other classes with an `isoformat` method are not modelled. Any other object is the case `Other`, known only by a description; it is copied through, as the source does.
- `InvoiceApi.SessionHeaders`: the model holds only the headers `_setup_headers` adds. `requests.Session()` also starts with the library's default headers (Accept, Accept-Encoding, Connection), which `headers.update` keeps; these are not modelled.
- Status codes are non-negative integers; the HTTP reason phrase and headers of the answer are not modelled.
- The rest of both utils files (`safe_json_load`, `safe_json_save`, `ensure_directory`, the wx date converters) is file-system and GUI code and is not part of this model. Neither are invoice_generator/ig.py, template_dialogs.py, templates.py, speech.py or the three config.py files.
- The module-level `create_item` and `create_api_client` are the `NewItem` function and the `InvoiceGeneratorApi` constructor; `create_api_client()` without a key is a client whose key is `None`.

=== FILE: api.dfy ===
/** The client of invoice_generator/invoice_api.py: the default output file
    name, the endpoint, the mapping of every outcome of the POST and of the file
    write to the message the caller gets back, the validation that collects
    every problem of an invoice, and the supported codes. The HTTP exchange and
    the file write are parameters: `post` gives the outcome of a request and
    `write` the outcome of saving bytes under a path. */
module InvoiceApi {
  import opened Wrappers
  import opened Text
  import opened Dates
  import opened Json
  import opened UtilsCommon
  import PackageUtils
  import opened InvoiceModel

  datatype InvoiceFormat = Pdf | Ubl

  const BaseUrl := "https://invoice-generator.com"

  /** The URL a document of format `f` is requested from: the base URL for a
      PDF, the base URL followed by "/ubl" for an e-invoice. */
  function Endpoint(f: InvoiceFormat): (url: string)
    ensures |url| >= |BaseUrl| && url[..|BaseUrl|] == BaseUrl
    ensures url == BaseUrl <==> f == Pdf
  {
    match f
    case Pdf => BaseUrl
    case Ubl =>
      assert |BaseUrl + "/ubl"| != |BaseUrl|;
      BaseUrl + "/ubl"
  }

  /** Three characters, none of them a dot or an invalid character, and no
      trailing whitespace: the extensions the client appends. */
  predicate UsableExtension(ext: string) {
    |ext| == 3 && '.' !in ext && !IsSpace(ext[2]) && forall c | c in ext :: c !in InvalidChars
  }

  /** The extension of the default output path: "pdf" or "xml". */
  function FileExtension(f: InvoiceFormat): (ext: string)
    ensures UsableExtension(ext)
  {
    if f == Pdf then "pdf" else "xml"
  }

  // ---------------------------------------------------------------------------
  // _generate_filename

  /** The name before sanitising: "invoice", then "_" and the stripped number
      when the number is set and not blank, then "." and the extension. */
  function RawFilename(number: Option<string>, ext: string): string {
    "invoice" + NumberSuffix(number) + "." + ext
  }

  /** "_" and the stripped number when the number is set and not blank. */
  function NumberSuffix(number: Option<string>): string {
    if number.Some? && !IsBlank(number.value) then "_" + Strip(number.value) else ""
  }

  /** `_generate_filename`: a sanitised name, so at most 50 characters long and
      free of invalid characters. */
  function GenerateFilename(inv: Invoice, ext: string): (r: string)
    reads inv
    ensures |r| <= PackageUtils.MaxLength
    ensures forall c | c in r :: c !in InvalidChars
  {
    PackageUtils.Sanitize(RawFilename(inv.number, ext))
  }

  /** The shape of every default file name for the extension `ext`: 11 to 50
      characters, "invoice" at the start, "." and the extension at the end. */
  predicate InvoiceNameShape(r: string, ext: string) {
    && 11 <= |r| <= PackageUtils.MaxLength
    && r[..7] == "invoice"
    && r[|r| - 4..] == "." + ext
  }

  /** The default file name of an invoice for either format: "invoice", then
      "." and the format's extension, 11 to 50 characters long; exactly
      "invoice." and the extension when the invoice has no usable number. */
  lemma DefaultFilename(inv: Invoice, f: InvoiceFormat)
    ensures InvoiceNameShape(GenerateFilename(inv, FileExtension(f)), FileExtension(f))
    ensures inv.number.None? || IsBlank(inv.number.value) ==>
      GenerateFilename(inv, FileExtension(f)) == "invoice." + FileExtension(f)
  {
    GeneratedFilename(inv, FileExtension(f));
  }

  /** The same for any usable extension. */
  lemma GeneratedFilename(inv: Invoice, ext: string)
    requires UsableExtension(ext)
    ensures InvoiceNameShape(GenerateFilename(inv, ext), ext)
    ensures inv.number.None? || IsBlank(inv.number.value) ==>
      GenerateFilename(inv, ext) == "invoice." + ext
  {
    FilenameShape(inv.number, ext);
    if inv.number.None? || IsBlank(inv.number.value) {
      FilenameWithoutNumber(inv.number, ext);
    }
  }

  /** The default file name for either extension starts with "invoice", ends
      with that extension and is 11 to 50 characters long; when the raw name fits it is that name with the invalid
      characters of the number replaced. */
  lemma FilenameShape(number: Option<string>, ext: string)
    requires UsableExtension(ext)
    ensures InvoiceNameShape(PackageUtils.Sanitize(RawFilename(number, ext)), ext)
    ensures var raw := RawFilename(number, ext);
      |raw| <= PackageUtils.MaxLength ==> PackageUtils.Sanitize(raw) == Replaced(raw)
  {
    JoinedNameShape(NumberSuffix(number), ext);
  }

  /** The same for "invoice", any middle part, "." and the extension. */
  lemma JoinedNameShape(mid: string, ext: string)
    requires UsableExtension(ext)
    ensures InvoiceNameShape(PackageUtils.Sanitize("invoice" + mid + "." + ext), ext)
    ensures var raw := "invoice" + mid + "." + ext;
      |raw| <= PackageUtils.MaxLength ==> PackageUtils.Sanitize(raw) == Replaced(raw)
  {
    JoinShape(mid, ext);
    SanitizeInvoiceName("invoice" + mid + "." + ext, ext);
  }

  /** Without a usable number the default file name is exactly "invoice." and
      the extension. */
  lemma FilenameWithoutNumber(number: Option<string>, ext: string)
    requires UsableExtension(ext)
    requires number.None? || IsBlank(number.value)
    ensures PackageUtils.Sanitize(RawFilename(number, ext)) == "invoice." + ext
  {
    RawFilenameWithoutNumber(number, ext);
    PlainNameUnchanged(ext);
  }

  /** Without a usable number the raw name is just "invoice." and the extension. */
  lemma RawFilenameWithoutNumber(number: Option<string>, ext: string)
    requires number.None? || IsBlank(number.value)
    ensures RawFilename(number, ext) == "invoice." + ext
  {
    assert NumberSuffix(number) == "";
  }

  /** "invoice", any middle part, ".", and a three-character extension. */
  lemma JoinShape(mid: string, ext: string)
    requires |ext| == 3
    ensures var raw := "invoice" + mid + "." + ext;
      |raw| >= 11 && raw[..7] == "invoice" && raw[|raw| - 4..] == "." + ext
  {
    var raw := "invoice" + mid + "." + ext;
    assert raw[..7] == "invoice";
    assert raw[|raw| - 4..] == "." + ext;
  }

  /** "invoice." and a valid extension has nothing to replace, strip or cut. */
  lemma PlainNameUnchanged(ext: string)
    requires |ext| == 3 && !IsSpace(ext[2])
    requires forall c | c in ext :: c !in InvalidChars
    ensures PackageUtils.Sanitize("invoice." + ext) == "invoice." + ext
  {
    var name := "invoice." + ext;
    assert forall i | 0 <= i < 8 :: name[i] in "invoice.";
    assert forall i | 8 <= i < 11 :: name[i] in ext;
    ReplacedUnchanged(name);
    StripUnchanged(name);
  }

  /** A name that starts with "invoice" and ends with a three-character
      extension keeps both once sanitised, whatever lies between them. */
  lemma SanitizeInvoiceName(raw: string, ext: string)
    requires |raw| >= 11 && raw[..7] == "invoice" && raw[|raw| - 4..] == "." + ext
    requires |ext| == 3 && '.' !in ext && !IsSpace(ext[2])
    requires forall c | c in ext :: c !in InvalidChars
    ensures InvoiceNameShape(PackageUtils.Sanitize(raw), ext)
    ensures |raw| <= PackageUtils.MaxLength ==> PackageUtils.Sanitize(raw) == Replaced(raw)
  {
    var s := Replaced(raw);
    ReplacedInvoiceName(raw, ext);
    StripUnchanged(s);
    FitInvoiceName(s, ext);
  }

  /** The replacement leaves "invoice" and a valid extension in place. */
  lemma ReplacedInvoiceName(raw: string, ext: string)
    requires |raw| >= 11 && raw[..7] == "invoice" && raw[|raw| - 4..] == "." + ext
    requires forall c | c in ext :: c !in InvalidChars
    ensures var s := Replaced(raw);
      && |s| == |raw| && s[..7] == "invoice" && s == s[..|s| - 4] + "." + ext
  {
    var s := Replaced(raw);
    assert s[..7] == "invoice" by {
      assert forall i | 0 <= i < 7 :: raw[i] == "invoice"[i] && s[i] == raw[i];
    }
    assert s[|s| - 4..] == "." + ext by {
      assert forall i | |s| - 4 <= i < |s| :: raw[i] in "." + ext && s[i] == raw[i];
    }
    assert s == s[..|s| - 4] + s[|s| - 4..];
  }

  /** The length cap keeps "invoice" at the start and the extension at the end. */
  lemma FitInvoiceName(s: string, ext: string)
    requires |s| >= 11 && s[..7] == "invoice" && s == s[..|s| - 4] + "." + ext
    requires |ext| == 3 && '.' !in ext
    ensures InvoiceNameShape(PackageUtils.Fit(s), ext)
    ensures |s| <= PackageUtils.MaxLength ==> PackageUtils.Fit(s) == s
  {
    PackageUtils.LastDotOfJoin(s[..|s| - 4], ext);
    if |s| > PackageUtils.MaxLength {
      PackageUtils.FitKeepsExtension(s);
      var r := PackageUtils.Fit(s);
      assert r[..7] == s[..7];
    } else {
      PackageUtils.FitShortUnchanged(s);
    }
  }

  // ---------------------------------------------------------------------------
  // The request and its outcome

  /** What the server answered: the status code, the body as bytes and as text. */
  datatype Response = Response(status: nat, content: seq<bv8>, text: string)

  /** The outcome of a POST: an answer, or one of the three ways the transport
      fails. */
  datatype Transport =
    | Responded(response: Response)
    | TimedOut
    | ConnectionFailed
    | RequestFailed(reason: string)

  /** The outcome of writing bytes to a file. */
  datatype WriteOutcome = Written | WriteFailed(reason: string)

  /** A POST: the URL, the session headers and the JSON body. */
  datatype Request = Request(url: string, headers: map<string, string>, body: map<string, Json>)

  /** A file the client saved: its path and its bytes. */
  datatype SavedFile = SavedFile(path: string, content: seq<bv8>)

  const SavedPrefix := "Invoice saved as "
  const TimeoutMessage := "Error: Request timed out"
  const ConnectionMessage := "Error: Unable to connect to the API"

  /** Whether a message is one of the error messages. */
  predicate IsError(message: string) {
    |message| >= 5 && message[..5] == "Error"
  }

  /** The message `_generate_invoice` returns, and the file it leaves behind,
      for a given answer of the server and a given outcome of the write. A file
      is saved exactly when the server answered 200 and the write succeeded, and
      exactly then the message is not an error; an answer other than 200 gives
      its code and body. */
  function Outcome(reply: Transport, path: string, write: (string, seq<bv8>) -> WriteOutcome)
    : (r: (string, Option<SavedFile>))
    ensures r.1.Some? <==> reply.Responded? && reply.response.status == 200
                           && write(path, reply.response.content) == Written
    ensures r.1.Some? ==> r.1.value == SavedFile(path, reply.response.content) && r.0 == SavedPrefix + path
    ensures r.1.None? <==> IsError(r.0)
    ensures reply.Responded? && reply.response.status != 200 ==>
      r.0 == "Error " + NatToString(reply.response.status) + ": " + reply.response.text
  {
    match reply
    case Responded(response) =>
      if response.status == 200 then
        match write(path, response.content)
        case Written =>
          assert (SavedPrefix + path)[0] == 'I';
          (SavedPrefix + path, Some(SavedFile(path, response.content)))
        case WriteFailed(e) => ("Error saving file: " + e, None)
      else ("Error " + NatToString(response.status) + ": " + response.text, None)
    case TimedOut => (TimeoutMessage, None)
    case ConnectionFailed => (ConnectionMessage, None)
    case RequestFailed(e) => ("Error: " + e, None)
  }

  /** An answer of 500 with body "server error" gives a message naming both and
      saves nothing. */
  lemma ServerErrorScenario(content: seq<bv8>, path: string, write: (string, seq<bv8>) -> WriteOutcome)
    ensures Outcome(Responded(Response(500, content, "server error")), path, write)
      == ("Error 500: server error", None)
  {
    assert NatToString(500) == "500" by {
      assert DigitChar(5) == '5' && DigitChar(0) == '0';
      assert NatToString(5) == "5";
      assert NatToString(50) == NatToString(5) + [DigitChar(0)] == "50";
      assert NatToString(500) == NatToString(50) + [DigitChar(0)];
    }
    assert "Error " + "500" + ": " + "server error" == "Error 500: server error";
  }

  /** The name the client gives in its User-Agent header. */
  const ClientName := "InvoiceGenerator-Python-Client/1.0"

  /** The headers `_setup_headers` puts on the session: the content type and the
      client name always, and the bearer credential when a non-empty key is
      configured. */
  function SessionHeaders(apiKey: Option<string>): (h: map<string, string>)
    ensures h.Keys <= {"Content-Type", "User-Agent", "Authorization"}
    ensures "Content-Type" in h && h["Content-Type"] == "application/json"
    ensures "User-Agent" in h && h["User-Agent"] == ClientName
    ensures "Authorization" in h <==> apiKey.Some? && apiKey.value != ""
    ensures "Authorization" in h ==> h["Authorization"] == "Bearer " + apiKey.value
  {
    var h := map["Content-Type" := "application/json", "User-Agent" := ClientName];
    if apiKey.Some? && apiKey.value != "" then h["Authorization" := "Bearer " + apiKey.value] else h
  }

  // ---------------------------------------------------------------------------
  // validate_invoice

  const NoItems := "At least one item is required"
  const DueBeforeDate := "Due date cannot be before invoice date"
  const PaidExceedsTotal := "Amount paid cannot exceed total"

  /** The supported currency codes, in declaration order. */
  const Currencies: seq<string> := ["USD", "EUR", "GBP", "CAD", "AUD", "JPY"]

  /** The supported language codes, in declaration order. */
  const Languages: seq<string> := ["en", "fr", "de", "es", "th"]

  /** The client: the key it was created with and the headers its session sends
      with every request. */
  class InvoiceGeneratorApi {
    var apiKey: Option<string>
    var headers: map<string, string>

    /** `__init__` and `_setup_headers`. */
    constructor (apiKey: Option<string>)
      ensures this.apiKey == apiKey && headers == SessionHeaders(apiKey)
    {
      this.apiKey := apiKey;
      headers := SessionHeaders(apiKey);
    }

    /** `_generate_invoice`: posts the wire representation to the format's
        endpoint with the session headers, then saves the body of a 200 answer
        under `outputPath`. Every outcome becomes a message; nothing is raised. */
    method GenerateInvoice(inv: Invoice, format: InvoiceFormat, outputPath: string,
                           post: Request -> Transport, write: (string, seq<bv8>) -> WriteOutcome)
      returns (message: string, saved: Option<SavedFile>)
      ensures (message, saved) == Outcome(post(Request(Endpoint(format), headers, inv.Wire())), outputPath, write)
    {
      var url := BaseUrl;
      if format == Ubl {
        url := url + "/ubl";
      }
      var data := inv.ToDict();
      var reply := post(Request(url, headers, data));
      match reply {
        case Responded(response) =>
          if response.status == 200 {
            match write(outputPath, response.content) {
              case Written =>
                message := SavedPrefix + outputPath;
                saved := Some(SavedFile(outputPath, response.content));
              case WriteFailed(e) =>
                message := "Error saving file: " + e;
                saved := None;
            }
          } else {
            message := "Error " + NatToString(response.status) + ": " + response.text;
            saved := None;
          }
        case TimedOut =>
          message := TimeoutMessage;
          saved := None;
        case ConnectionFailed =>
          message := ConnectionMessage;
          saved := None;
        case RequestFailed(e) =>
          message := "Error: " + e;
          saved := None;
      }
    }

    /** `generate_pdf`: the given path, or the default file name with extension
        "pdf"; then a PDF request. */
    method GeneratePdf(inv: Invoice, outputPath: Option<string>,
                       post: Request -> Transport, write: (string, seq<bv8>) -> WriteOutcome)
      returns (message: string, saved: Option<SavedFile>)
      ensures var path := if outputPath.Some? then outputPath.value else GenerateFilename(inv, "pdf");
        (message, saved) == Outcome(post(Request(BaseUrl, headers, inv.Wire())), path, write)
    {
      var path := if outputPath.Some? then outputPath.value else GenerateFilename(inv, "pdf");
      message, saved := GenerateInvoice(inv, Pdf, path, post, write);
    }

    /** `generate_ubl`: the given path, or the default file name with extension
        "xml"; then an e-invoice request. */
    method GenerateUbl(inv: Invoice, outputPath: Option<string>,
                       post: Request -> Transport, write: (string, seq<bv8>) -> WriteOutcome)
      returns (message: string, saved: Option<SavedFile>)
      ensures var path := if outputPath.Some? then outputPath.value else GenerateFilename(inv, "xml");
        (message, saved) == Outcome(post(Request(BaseUrl + "/ubl", headers, inv.Wire())), path, write)
    {
      var path := if outputPath.Some? then outputPath.value else GenerateFilename(inv, "xml");
      message, saved := GenerateInvoice(inv, Ubl, path, post, write);
    }

    /** `validate_invoice`: every check runs, and the messages come in the order
        of the checks: no items, a due date before the invoice date (both set),
        an amount paid above the total. The list is empty exactly when none of
        these holds. */
    method ValidateInvoice(inv: Invoice) returns (errors: seq<string>)
      ensures errors == [] <==>
        inv.items != []
        && !(inv.date.Some? && inv.dueDate.Some? && Before(inv.dueDate.value, inv.date.value))
        && inv.amountPaid <= inv.Total()
      ensures NoItems in errors <==> inv.items == []
      ensures DueBeforeDate in errors <==>
        inv.date.Some? && inv.dueDate.Some? && Before(inv.dueDate.value, inv.date.value)
      ensures PaidExceedsTotal in errors <==> inv.amountPaid > inv.Total()
      ensures forall e | e in errors :: e == NoItems || e == DueBeforeDate || e == PaidExceedsTotal
      ensures forall i, j | 0 <= i < j < |errors| ::
        (errors[i] == NoItems && errors[j] != NoItems)
        || (errors[i] == DueBeforeDate && errors[j] == PaidExceedsTotal)
    {
      errors := [];
      if inv.items == [] {
        errors := errors + [NoItems];
      }
      if inv.dueDate.Some? && inv.date.Some? && Before(inv.dueDate.value, inv.date.value) {
        errors := errors + [DueBeforeDate];
      }
      if inv.amountPaid > inv.Total() {
        errors := errors + [PaidExceedsTotal];
      }
    }

    /** `get_supported_currencies`: six distinct three-letter codes, the default
        currency first. */
    method GetSupportedCurrencies() returns (codes: seq<string>)
      ensures codes == Currencies
      ensures |codes| == 6 && codes[0] == DefaultCurrency
      ensures forall i | 0 <= i < |codes| :: |codes[i]| == 3
      ensures forall i, j | 0 <= i < j < |codes| :: codes[i] != codes[j]
    {
      codes := Currencies;
    }

    /** `get_supported_languages`: five distinct two-letter codes. */
    method GetSupportedLanguages() returns (codes: seq<string>)
      ensures codes == Languages
      ensures forall i | 0 <= i < |codes| :: |codes[i]| == 2
      ensures forall i, j | 0 <= i < j < |codes| :: codes[i] != codes[j]
    {
      codes := Languages;
    }
  }

  /** An invoice that passes validation and whose amount paid is not negative
      owes exactly its total less the amount paid: the clamp of `balance_due`
      never applies to it. */
  lemma ValidatedBalance(inv: Invoice)
    requires inv.amountPaid >= 0.0 && inv.amountPaid <= inv.Total()
    ensures inv.BalanceDue() == inv.Total() - inv.amountPaid
    ensures inv.BalanceDue() <= inv.Total()
  {
  }

  /** 2 at 10.0 less a discount of 5.0 costs 15.0. */
  lemma WidgetCost(name: string)
    ensures TotalCost(Item(name, 2, 10.0, None, Some(5.0))) == 15.0
  {
    assert 2 as real * 10.0 == 20.0;
  }

  /** Any two parties and one item of 2 at 10.0 with a discount of 5.0, no tax,
      shipping or discounts, and 10.0 paid: subtotal and total 15.0, balance due
      5.0. */
  method WidgetScenario(sender: string, recipient: string, name: string) returns (inv: Invoice)
    requires !IsBlank(sender) && !IsBlank(recipient) && !IsBlank(name)
    ensures inv.Subtotal() == 15.0 && inv.Total() == 15.0 && inv.BalanceDue() == 5.0
  {
    WidgetCost(name);
    var created := CreateInvoice(sender, recipient);
    inv := created.value;
    var item := NewItem(name, 2, 10.0, None, Some(5.0));
    inv.AddItem(item.value);
    assert inv.tax == 0.0 && inv.shipping == 0.0 && inv.discounts == 0.0;
    inv.amountPaid := 10.0;
  }
}

=== FILE: dates.dfy ===
/** Python's `datetime.date` as a (year, month, day) triple: the ordering used
    when the due date is checked against the invoice date, and the
    `YYYY-MM-DD` text (the ISO 8601 calendar date in extended format) that the
    wire representation and `isoformat()` produce. */
module Dates {
  import opened Wrappers
  import opened Text

  datatype Date = Date(year: nat, month: nat, day: nat) {

    /** The dates Python can represent: years 1 to 9999 of the proleptic
        Gregorian calendar. */
    predicate Valid() {
      1 <= year <= 9999 && 1 <= month <= 12 && 1 <= day <= DaysInMonth(year, month)
    }
  }

  /** The dates a `datetime.date` can hold, and so an invoice. */
  type ValidDate = d: Date | d.Valid() witness Date(1, 1, 1)

  predicate IsLeapYear(y: int) {
    y % 4 == 0 && (y % 100 != 0 || y % 400 == 0)
  }

  function DaysInMonth(y: int, m: int): (n: int)
    ensures 28 <= n <= 31
  {
    if m == 2 then (if IsLeapYear(y) then 29 else 28)
    else if m == 4 || m == 6 || m == 9 || m == 11 then 30
    else 31
  }

  /** Python's `a < b` on dates: lexicographic on (year, month, day). */
  predicate Before(a: Date, b: Date) {
    a.year < b.year
    || (a.year == b.year && a.month < b.month)
    || (a.year == b.year && a.month == b.month && a.day < b.day)
  }

  /** `Before` is a strict total order. */
  lemma BeforeStrictTotal(a: Date, b: Date, c: Date)
    ensures !Before(a, a)
    ensures Before(a, b) && Before(b, c) ==> Before(a, c)
    ensures a == b || Before(a, b) || Before(b, a)
  {
  }

  /** `d.isoformat()`, which is also `d.strftime("%Y-%m-%d")`: four-digit year,
      two-digit month and day, separated by '-'. */
  function IsoFormat(d: Date): (s: string)
    ensures |s| == 10 && s[4] == '-' && s[7] == '-'
  {
    PadDigits(d.year, 4) + "-" + PadDigits(d.month, 2) + "-" + PadDigits(d.day, 2)
  }

  /** The shape `DDDD-DD-DD` with decimal digits D. */
  predicate IsoShaped(s: string) {
    |s| == 10 && s[4] == '-' && s[7] == '-'
    && (forall i | 0 <= i < 4 :: IsDigit(s[i]))
    && IsDigit(s[5]) && IsDigit(s[6]) && IsDigit(s[8]) && IsDigit(s[9])
  }

  /** `date.fromisoformat` restricted to the `YYYY-MM-DD` form: the text is
      accepted exactly when it has that shape and names a valid date. */
  function ParseIso(s: string): (r: Option<Date>)
    ensures r.Some? ==> r.value.Valid()
  {
    if !IsoShaped(s) then None
    else
      var d := Date(DigitsValue(s[..4]), DigitsValue(s[5..7]), DigitsValue(s[8..]));
      if d.Valid() then Some(d) else None
  }

  /** Reading back the ISO text of a date gives the date. */
  lemma IsoRoundTrip(d: Date)
    requires d.Valid()
    ensures ParseIso(IsoFormat(d)) == Some(d)
  {
    var s := IsoFormat(d);
    assert s[..4] == PadDigits(d.year, 4);
    assert s[5..7] == PadDigits(d.month, 2);
    assert s[8..] == PadDigits(d.day, 2);
    PadDigitsValue(d.year, 4);
    PadDigitsValue(d.month, 2);
    PadDigitsValue(d.day, 2);
  }

  /** Every text that parses is the ISO text of the date it parses to. */
  lemma ParseIsoCanonical(s: string)
    requires ParseIso(s).Some?
    ensures IsoFormat(ParseIso(s).value) == s
  {
    var d := ParseIso(s).value;
    DigitsPadded(s[..4]);
    DigitsPadded(s[5..7]);
    DigitsPadded(s[8..]);
    assert s == s[..4] + "-" + s[5..7] + "-" + s[8..];
  }

  /** Padding the value of a digit string back to its width gives the string. */
  lemma {:induction false} DigitsPadded(s: string)
    requires forall i | 0 <= i < |s| :: IsDigit(s[i])
    ensures PadDigits(DigitsValue(s), |s|) == s
  {
    if s != [] {
      var init := s[..|s| - 1];
      var n := DigitsValue(s);
      var d := DigitValue(s[|s| - 1]);
      assert n == 10 * DigitsValue(init) + d;
      assert n / 10 == DigitsValue(init) && n % 10 == d;
      DigitsPadded(init);
      assert s == init + [s[|s| - 1]];
    }
  }

  /** Two valid dates have the same ISO text only when they are the same date. */
  lemma IsoFormatInjective(a: Date, b: Date)
    requires a.Valid() && b.Valid() && IsoFormat(a) == IsoFormat(b)
    ensures a == b
  {
    IsoRoundTrip(a);
    IsoRoundTrip(b);
  }

  /** A naive `datetime.time` (no time zone). */
  datatype Clock = Clock(hour: nat, minute: nat, second: nat, microsecond: nat) {

    /** The times Python can represent: 00:00:00 up to 23:59:59.999999. */
    predicate Valid() {
      hour < 24 && minute < 60 && second < 60 && microsecond < 1000000
    }
  }

  /** The times a `datetime.time` or a `datetime.datetime` can hold. */
  type ValidClock = t: Clock | t.Valid() witness Clock(0, 0, 0, 0)

  /** `t.isoformat()`: `HH:MM:SS`, followed by `.ffffff` when the microseconds are
      not zero. */
  function ClockIsoFormat(t: Clock): (s: string)
    ensures |s| == (if t.microsecond == 0 then 8 else 15)
  {
    PadDigits(t.hour, 2) + ":" + PadDigits(t.minute, 2) + ":" + PadDigits(t.second, 2)
    + (if t.microsecond == 0 then "" else "." + PadDigits(t.microsecond, 6))
  }
}

=== FILE: invoice.dfy ===
/** The invoice domain model of invoice_generator/invoice_api.py: line items
    that validate themselves when built, the display flags, custom fields, and
    the `Invoice` aggregate with its money values and its wire representation
    (the JSON object posted to the rendering service). */
module InvoiceModel {
  import opened Wrappers
  import opened Text
  import opened Dates
  import opened Json

  // ---------------------------------------------------------------------------
  // Money

  /** Python's `max(0, x)`. */
  function MaxZero(x: real): (r: real)
    ensures r >= 0.0 && r >= x
    ensures r == 0.0 || r == x
  {
    if x > 0.0 then x else 0.0
  }

  // ---------------------------------------------------------------------------
  // CustomField

  datatype CustomField = CustomField(name: string, value: string)

  /** `CustomField.to_dict`. */
  function CustomFieldToDict(f: CustomField): (m: map<string, Json>)
    ensures m.Keys == {"name", "value"}
  {
    map["name" := JStr(f.name), "value" := JStr(f.value)]
  }

  /** Reads a custom field back from its wire object. */
  function CustomFieldFromWire(m: map<string, Json>): Option<CustomField> {
    if "name" in m && m["name"].JStr? && "value" in m && m["value"].JStr?
    then Some(CustomField(m["name"].s, m["value"].s))
    else None
  }

  /** A custom field is read back from its wire object unchanged. */
  lemma CustomFieldRoundTrip(f: CustomField)
    ensures CustomFieldFromWire(CustomFieldToDict(f)) == Some(f)
  {
  }

  /** The list of wire objects of the custom fields, in order. */
  function CustomFieldsToWire(fields: seq<CustomField>): (r: seq<Json>)
    ensures |r| == |fields|
    ensures forall k | 0 <= k < |fields| :: r[k] == JObj(CustomFieldToDict(fields[k]))
  {
    seq(|fields|, k requires 0 <= k < |fields| => JObj(CustomFieldToDict(fields[k])))
  }

  // ---------------------------------------------------------------------------
  // DisplayFields

  /** The three values `DisplayFields.tax` takes: False, True and "%". */
  datatype TaxDisplay = Hide | Show | Percent

  datatype DisplayFields = DisplayFields(tax: TaxDisplay, discounts: bool, shipping: bool)

  /** The defaults: tax shown as a percentage, discounts and shipping hidden. */
  const DefaultDisplay := DisplayFields(Percent, false, false)

  function TaxDisplayToJson(t: TaxDisplay): Json {
    match t
    case Hide => JBool(false)
    case Show => JBool(true)
    case Percent => JStr("%")
  }

  /** `DisplayFields.to_dict`. */
  function DisplayToDict(d: DisplayFields): (m: map<string, Json>)
    ensures m.Keys == {"tax", "discounts", "shipping"}
  {
    map["tax" := TaxDisplayToJson(d.tax), "discounts" := JBool(d.discounts), "shipping" := JBool(d.shipping)]
  }

  /** Reads the display flags back from their wire object. */
  function DisplayFromWire(m: map<string, Json>): Option<DisplayFields> {
    if "tax" in m && "discounts" in m && m["discounts"].JBool? && "shipping" in m && m["shipping"].JBool? then
      var tax :=
        if m["tax"] == JBool(false) then Some(Hide)
        else if m["tax"] == JBool(true) then Some(Show)
        else if m["tax"] == JStr("%") then Some(Percent)
        else None;
      if tax.Some? then Some(DisplayFields(tax.value, m["discounts"].b, m["shipping"].b)) else None
    else None
  }

  /** The display flags are read back from their wire object unchanged: the
      three tax settings stay distinct on the wire. */
  lemma DisplayRoundTrip(d: DisplayFields)
    ensures DisplayFromWire(DisplayToDict(d)) == Some(d)
  {
  }

  // ---------------------------------------------------------------------------
  // InvoiceItem

  datatype Item = Item(name: string, quantity: int, unitCost: real,
                       description: Option<string>, discount: Option<real>)
  {
    /** What `InvoiceItem.__post_init__` checks. */
    predicate Valid() {
      !IsBlank(name) && quantity > 0 && unitCost >= 0.0 && (discount.Some? ==> discount.value >= 0.0)
    }
  }

  /** An item that passed `__post_init__`: the only kind the source can build. */
  type InvoiceItem = i: Item | i.Valid() witness Item("x", 1, 0.0, None, None)

  const NameRequired := "Item name cannot be empty"
  const QuantityNotPositive := "Quantity must be positive"
  const UnitCostNegative := "Unit cost cannot be negative"
  const DiscountNegative := "Discount cannot be negative"

  /** Building an `InvoiceItem` (`create_item`): it fails exactly when the name is
      blank, the quantity is not positive, the unit cost is negative or a given
      discount is negative, and it reports the first of these in that order. */
  function NewItem(name: string, quantity: int, unitCost: real,
                   description: Option<string>, discount: Option<real>): (r: Result<InvoiceItem, string>)
    ensures r.Success? <==>
      !IsBlank(name) && quantity > 0 && unitCost >= 0.0 && (discount.Some? ==> discount.value >= 0.0)
    ensures r.Success? ==> r.value == Item(name, quantity, unitCost, description, discount)
    ensures IsBlank(name) ==> r == Failure(NameRequired)
    ensures !IsBlank(name) && quantity <= 0 ==> r == Failure(QuantityNotPositive)
    ensures !IsBlank(name) && quantity > 0 && unitCost < 0.0 ==> r == Failure(UnitCostNegative)
    ensures !IsBlank(name) && quantity > 0 && unitCost >= 0.0 && discount.Some? && discount.value < 0.0
      ==> r == Failure(DiscountNegative)
  {
    if IsBlank(name) then Failure(NameRequired)
    else if quantity <= 0 then Failure(QuantityNotPositive)
    else if unitCost < 0.0 then Failure(UnitCostNegative)
    else if discount.Some? && discount.value < 0.0 then Failure(DiscountNegative)
    else
      var item := Item(name, quantity, unitCost, description, discount);
      assert item.Valid();
      Success(item)
  }

  /** `InvoiceItem.total_cost`: quantity times unit cost, less the discount when
      it is set and not zero, and never below zero. For an item that passed its
      checks it never exceeds quantity times unit cost. */
  function TotalCost(i: Item): (r: real)
    ensures r >= 0.0
    ensures r >= Gross(i) - Discount(i) && (r == 0.0 || r == Gross(i) - Discount(i))
    ensures i.Valid() ==> r <= Gross(i)
  {
    var subtotal := if i.discount.Some? && i.discount.value != 0.0 then Gross(i) - i.discount.value else Gross(i);
    GrossNonNegative(i);
    MaxZero(subtotal)
  }

  /** Quantity times unit cost. */
  function Gross(i: Item): real {
    Product(i.quantity, i.unitCost)
  }

  /** Python's `quantity * unit_cost`: an int times a float. */
  function Product(quantity: int, unitCost: real): real {
    quantity as real * unitCost
  }

  /** The discount, an absent one counting as 0. */
  function Discount(i: Item): real {
    if i.discount.Some? then i.discount.value else 0.0
  }

  /** Quantity times unit cost is not negative when neither is, as for every
      checked item. */
  lemma GrossNonNegative(i: Item)
    ensures i.quantity >= 0 && i.unitCost >= 0.0 ==> Gross(i) >= 0.0
  {
    if i.quantity >= 0 && i.unitCost >= 0.0 {
      MulNonNegative(i.quantity as real, i.unitCost);
    }
  }

  lemma MulNonNegative(a: real, b: real)
    requires a >= 0.0 && b >= 0.0
    ensures a * b >= 0.0
  {
  }

  /** `InvoiceItem.to_dict`: name, quantity and unit_cost always; the description
      only when it is a non-empty string; the discount whenever one is set,
      zero included. */
  function ItemToDict(i: Item): (m: map<string, Json>)
    ensures "name" in m && m["name"] == JStr(i.name)
    ensures "quantity" in m && m["quantity"] == JInt(i.quantity)
    ensures "unit_cost" in m && m["unit_cost"] == JNum(i.unitCost)
    ensures "description" in m <==> i.description.Some? && i.description.value != ""
    ensures "description" in m ==> m["description"] == JStr(i.description.value)
    ensures "discount" in m <==> i.discount.Some?
    ensures "discount" in m ==> m["discount"] == JNum(i.discount.value)
  {
    var m := map["name" := JStr(i.name), "quantity" := JInt(i.quantity), "unit_cost" := JNum(i.unitCost)];
    var m := if i.description.Some? && i.description.value != "" then m["description" := JStr(i.description.value)] else m;
    if i.discount.Some? then m["discount" := JNum(i.discount.value)] else m
  }

  /** An item's wire object has no key besides the five of `InvoiceItem`. */
  lemma ItemToDictKeys(i: Item)
    ensures ItemToDict(i).Keys <= {"name", "quantity", "unit_cost", "description", "discount"}
  {
  }

  /** Reads an item back from its wire object; a missing description reads as none. */
  function ItemFromWire(m: map<string, Json>): Option<Item> {
    if "name" in m && m["name"].JStr? && "quantity" in m && m["quantity"].JInt?
       && "unit_cost" in m && m["unit_cost"].JNum? then
      var description := if "description" in m && m["description"].JStr? then Some(m["description"].s) else None;
      var discount := if "discount" in m && m["discount"].JNum? then Some(m["discount"].r) else None;
      Some(Item(m["name"].s, m["quantity"].i, m["unit_cost"].r, description, discount))
    else None
  }

  /** The description the wire keeps: an empty one is dropped. */
  function WireDescription(d: Option<string>): Option<string> {
    if d.Some? && d.value != "" then d else None
  }

  /** An item is read back from its wire object unchanged, except that an empty
      description comes back as none; nothing else is lost. */
  lemma ItemRoundTrip(i: Item)
    ensures ItemFromWire(ItemToDict(i)) == Some(i.(description := WireDescription(i.description)))
  {
    var m := ItemToDict(i);
    assert "name" in m && "quantity" in m && "unit_cost" in m;
  }

  /** The cost of an item recomputed from its wire object alone: quantity times
      unit_cost, less the discount if present, clamped at zero. */
  function WireItemCost(j: Json): Option<real> {
    if j.JObj? && "quantity" in j.fields && j.fields["quantity"].JInt?
       && "unit_cost" in j.fields && j.fields["unit_cost"].JNum? then
      var off := if "discount" in j.fields && j.fields["discount"].JNum? then Some(j.fields["discount"].r) else None;
      Some(CostOf(j.fields["quantity"].i, j.fields["unit_cost"].r, off))
    else None
  }

  /** max(0, quantity × unit cost − discount), an absent discount counting as 0. */
  function CostOf(quantity: int, unitCost: real, discount: Option<real>): real {
    MaxZero(Product(quantity, unitCost) - (if discount.Some? then discount.value else 0.0))
  }

  /** An item's cost is `CostOf` its three numbers: skipping a zero discount
      changes nothing. */
  lemma TotalCostIsCostOf(i: Item)
    ensures TotalCost(i) == CostOf(i.quantity, i.unitCost, i.discount)
  {
  }

  /** The cost recomputed from an item's wire object is the item's cost. */
  lemma WireItemCostMatches(i: Item)
    ensures WireItemCost(JObj(ItemToDict(i))) == Some(TotalCost(i))
  {
    var m := ItemToDict(i);
    assert m["quantity"] == JInt(i.quantity) && m["unit_cost"] == JNum(i.unitCost);
    var off := if "discount" in m && m["discount"].JNum? then Some(m["discount"].r) else None;
    assert off == i.discount;
    TotalCostIsCostOf(i);
  }

  /** The list of wire objects of the items, in order. */
  function ItemsToWire(items: seq<Item>): (r: seq<Json>)
    ensures |r| == |items|
    ensures forall k | 0 <= k < |items| :: r[k] == JObj(ItemToDict(items[k]))
  {
    seq(|items|, k requires 0 <= k < |items| => JObj(ItemToDict(items[k])))
  }

  /** Python's `sum(item.total_cost() for item in items)`. */
  function SumCosts(items: seq<Item>): real {
    if items == [] then 0.0 else TotalCost(items[0]) + SumCosts(items[1..])
  }

  /** A sum of item costs is never negative. */
  lemma {:induction false} SumCostsNonNegative(items: seq<Item>)
    ensures SumCosts(items) >= 0.0
  {
    if items != [] {
      SumCostsNonNegative(items[1..]);
    }
  }

  /** Appending an item adds its cost to the sum. */
  lemma {:induction false} SumCostsAppend(items: seq<Item>, item: Item)
    ensures SumCosts(items + [item]) == SumCosts(items) + TotalCost(item)
  {
    if items != [] {
      assert (items + [item])[1..] == items[1..] + [item];
      SumCostsAppend(items[1..], item);
    }
  }

  /** The subtotal recomputed from the wire list of items: the sum of the costs
      recomputed from each object, if every object has the numbers it needs. */
  function WireSubtotal(wire: seq<Json>): Option<real> {
    WireSubtotalFrom(wire, 0)
  }

  /** The same sum over the objects from index `k` on. */
  function WireSubtotalFrom(wire: seq<Json>, k: nat): Option<real>
    decreases |wire| - k
  {
    if k >= |wire| then Some(0.0)
    else
      match (WireItemCost(wire[k]), WireSubtotalFrom(wire, k + 1))
      case (Some(c), Some(rest)) => Some(c + rest)
      case _ => None
  }

  /** Recomputing each item's cost from its wire object and summing gives the
      subtotal of the items the wire was built from. */
  lemma WireSubtotalMatches(items: seq<Item>)
    ensures WireSubtotal(ItemsToWire(items)) == Some(SumCosts(items))
  {
    var wire := ItemsToWire(items);
    forall i | 0 <= i < |items|
      ensures WireItemCost(wire[i]) == Some(TotalCost(items[i]))
    {
      WireItemCostMatches(items[i]);
    }
    WireSubtotalFromMatches(wire, items, 0);
    assert items[0..] == items;
  }

  /** The sum from index `k` on, by induction on the number of objects left,
      for any list of objects whose recomputed costs are the items' costs. */
  lemma {:induction false} WireSubtotalFromMatches(wire: seq<Json>, items: seq<Item>, k: nat)
    requires |wire| == |items| && k <= |items|
    requires forall i | k <= i < |items| :: WireItemCost(wire[i]) == Some(TotalCost(items[i]))
    ensures WireSubtotalFrom(wire, k) == Some(SumCosts(items[k..]))
    decreases |items| - k
  {
    if k < |items| {
      WireSubtotalFromMatches(wire, items, k + 1);
      assert SumCosts(items[k..]) == TotalCost(items[k]) + SumCosts(items[k + 1..]) by {
        assert items[k..][0] == items[k] && items[k..][1..] == items[k + 1..];
      }
    } else {
      assert items[k..] == [];
    }
  }

  // ---------------------------------------------------------------------------
  // Invoice

  const SenderRequired := "Sender information is required"
  const RecipientRequired := "Recipient information is required"

  /** What `Invoice.__post_init__` checks: the sender, then the recipient, must
      not be blank after stripping. */
  function PartiesError(sender: string, recipient: string): (r: Option<string>)
    ensures r.None? <==> !IsBlank(sender) && !IsBlank(recipient)
    ensures IsBlank(sender) ==> r == Some(SenderRequired)
    ensures !IsBlank(sender) && IsBlank(recipient) ==> r == Some(RecipientRequired)
  {
    if IsBlank(sender) then Some(SenderRequired)
    else if IsBlank(recipient) then Some(RecipientRequired)
    else None
  }

  /** The currency an invoice starts with, which the wire leaves out. */
  const DefaultCurrency := "USD"

  /** The wire value of an optional string field: present only when it is a
      non-empty string (Python truthiness; no stripping). */
  function TextEntry(v: Option<string>): Option<Json> {
    if v.Some? && v.value != "" then Some(JStr(v.value)) else None
  }

  /** The wire value of a money field: present only when strictly positive. */
  function MoneyEntry(x: real): Option<Json> {
    if x > 0.0 then Some(JNum(x)) else None
  }

  /** The wire value of a date field: its `YYYY-MM-DD` text, when set. */
  function DateEntry(d: Option<Date>): Option<Json> {
    if d.Some? then Some(JStr(IsoFormat(d.value))) else None
  }

  /** The table entries of optional string fields, keys unchanged. */
  function TextEntries(fields: seq<(string, Option<string>)>): (r: seq<(string, Option<Json>)>)
    ensures |r| == |fields|
    ensures forall k | 0 <= k < |fields| :: r[k] == (fields[k].0, TextEntry(fields[k].1))
  {
    seq(|fields|, k requires 0 <= k < |fields| => (fields[k].0, TextEntry(fields[k].1)))
  }

  /** The map holding the present entries of a table; a later entry wins. */
  function Present(entries: seq<(string, Option<Json>)>): map<string, Json> {
    if entries == [] then map[]
    else
      var rest := Present(entries[..|entries| - 1]);
      var last := entries[|entries| - 1];
      if last.1.Some? then rest[last.0 := last.1.value] else rest
  }

  /** An entry whose key no other entry repeats is in the map exactly when it is
      present, and then with its value. */
  lemma {:induction false} PresentLookup(entries: seq<(string, Option<Json>)>, i: nat)
    requires i < |entries|
    requires forall j | 0 <= j < |entries| && j != i :: entries[j].0 != entries[i].0
    ensures entries[i].0 in Present(entries) <==> entries[i].1.Some?
    ensures entries[i].1.Some? ==> Present(entries)[entries[i].0] == entries[i].1.value
  {
    var n := |entries|;
    if i < n - 1 {
      PresentLookup(entries[..n - 1], i);
    } else if entries[i].1.None? {
      PresentAbsent(entries[..n - 1], entries[i].0);
    }
  }

  /** A key no entry carries is not in the map. */
  lemma {:induction false} PresentAbsent(entries: seq<(string, Option<Json>)>, k: string)
    requires forall j | 0 <= j < |entries| :: entries[j].0 != k
    ensures k !in Present(entries)
  {
    if entries != [] {
      PresentAbsent(entries[..|entries| - 1], k);
    }
  }

  /** A builder that updates `before` with the `n`-th entry when it is present
      has the map of the first `n + 1` entries, and of them all after the last. */
  lemma PresentExtend(entries: seq<(string, Option<Json>)>, n: nat, key: string, entry: Option<Json>,
                       before: map<string, Json>, after: map<string, Json>)
    requires n < |entries| && entries[n] == (key, entry) && before == Present(entries[..n])
    requires after == if entry.Some? then before[key := entry.value] else before
    ensures after == Present(entries[..n + 1])
    ensures n + 1 == |entries| ==> after == Present(entries)
  {
    PresentStep(entries, n);
    if n + 1 == |entries| {
      assert entries[..n + 1] == entries;
    }
  }

  /** The map of four entries that are all present. */
  lemma PresentFixed(entries: seq<(string, Option<Json>)>)
    requires |entries| == 4 && forall i | 0 <= i < 4 :: entries[i].1.Some?
    ensures Present(entries) == map[entries[0].0 := entries[0].1.value, entries[1].0 := entries[1].1.value,
                                    entries[2].0 := entries[2].1.value, entries[3].0 := entries[3].1.value]
  {
    var e3, e2, e1 := entries[..3], entries[..2], entries[..1];
    assert e3[..2] == e2 && e2[..1] == e1 && e1[..0] == [];
    assert Present(e1) == map[entries[0].0 := entries[0].1.value];
    assert Present(e2) == Present(e1)[entries[1].0 := entries[1].1.value];
    assert Present(e3) == Present(e2)[entries[2].0 := entries[2].1.value];
    assert Present(entries) == Present(e3)[entries[3].0 := entries[3].1.value];
  }

  /** The map of the first `n + 1` entries is the map of the first `n`, with the
      `n`-th entry added when it is present. */
  lemma PresentStep(entries: seq<(string, Option<Json>)>, n: nat)
    requires n < |entries|
    ensures Present(entries[..n + 1]) ==
      if entries[n].1.Some? then Present(entries[..n])[entries[n].0 := entries[n].1.value]
      else Present(entries[..n])
  {
    assert entries[..n + 1][..n] == entries[..n];
  }

  /** Every key of the map comes from the table. */
  lemma {:induction false} PresentKeys(entries: seq<(string, Option<Json>)>, k: string)
    requires k in Present(entries)
    ensures exists i | 0 <= i < |entries| :: entries[i].0 == k
  {
    if entries[|entries| - 1].0 != k {
      PresentKeys(entries[..|entries| - 1], k);
      var i :| 0 <= i < |entries| - 1 && entries[..|entries| - 1][i].0 == k;
      assert entries[i].0 == k;
    }
  }

  /** Every key the wire representation can hold. */
  const WireKeys: seq<string> := [
    "from", "to", "items", "fields", "tax", "discounts", "shipping", "amount_paid",
    "date", "due_date", "number", "currency", "payment_terms", "logo", "notes",
    "terms", "ship_to", "custom_fields"]

  /** No key of the table appears twice. */
  lemma WireKeysDistinct()
    ensures forall i, j | 0 <= i < j < |WireKeys| :: WireKeys[i] != WireKeys[j]
  {
  }

  /** An invoice. Construction (`CreateInvoice`) checks the two parties; after
      that every field is set in place, and the item and custom-field lists only
      ever grow at the end. */
  class Invoice {
    var sender: string
    var recipient: string
    var items: seq<InvoiceItem>
    var number: Option<string>
    var date: Option<ValidDate>
    var dueDate: Option<ValidDate>
    var currency: string
    var tax: real
    var discounts: real
    var shipping: real
    var amountPaid: real
    var shipTo: Option<string>
    var paymentTerms: Option<string>
    var logo: Option<string>
    var notes: Option<string>
    var terms: Option<string>
    var customFields: seq<CustomField>
    var displayFields: DisplayFields

    /** The dataclass defaults for every field but the two parties, which
        `__post_init__` requires to be non-blank. */
    constructor (sender: string, recipient: string)
      requires !IsBlank(sender) && !IsBlank(recipient)
      ensures this.sender == sender && this.recipient == recipient
      ensures items == [] && customFields == []
      ensures number.None? && date.None? && dueDate.None?
      ensures currency == DefaultCurrency
      ensures tax == 0.0 && discounts == 0.0 && shipping == 0.0 && amountPaid == 0.0
      ensures shipTo.None? && paymentTerms.None? && logo.None? && notes.None? && terms.None?
      ensures displayFields == DefaultDisplay
    {
      this.sender := sender;
      this.recipient := recipient;
      items := [];
      number := None;
      date := None;
      dueDate := None;
      currency := DefaultCurrency;
      tax := 0.0;
      discounts := 0.0;
      shipping := 0.0;
      amountPaid := 0.0;
      shipTo := None;
      paymentTerms := None;
      logo := None;
      notes := None;
      terms := None;
      customFields := [];
      displayFields := DefaultDisplay;
    }

    /** `add_item`: the item goes at the end; nothing else changes. */
    method AddItem(item: InvoiceItem)
      modifies this
      ensures items == old(items) + [item]
      ensures Subtotal() == old(Subtotal()) + TotalCost(item)
      ensures customFields == old(customFields)
      ensures Scalars() == old(Scalars())
    {
      SumCostsAppend(items, item);
      items := items + [item];
    }

    /** `add_custom_field`: the pair goes at the end; nothing else changes. */
    method AddCustomField(name: string, value: string)
      modifies this
      ensures customFields == old(customFields) + [CustomField(name, value)]
      ensures items == old(items)
      ensures Scalars() == old(Scalars())
    {
      customFields := customFields + [CustomField(name, value)];
    }

    /** Every field but the two lists, for stating that a method leaves them alone. */
    function Scalars(): (string, string, Option<string>, Option<ValidDate>, Option<ValidDate>, string,
                         (real, real, real, real),
                         (Option<string>, Option<string>, Option<string>, Option<string>, Option<string>),
                         DisplayFields)
      reads this
    {
      (sender, recipient, number, date, dueDate, currency,
       (tax, discounts, shipping, amountPaid),
       (shipTo, paymentTerms, logo, notes, terms),
       displayFields)
    }

    /** `subtotal`: the sum of the items' costs, never negative. */
    function Subtotal(): (r: real)
      reads this
      ensures r >= 0.0
    {
      SumCostsNonNegative(items);
      SumCosts(items)
    }

    /** `total`: subtotal plus tax plus shipping less discounts, never below zero. */
    function Total(): (r: real)
      reads this
      ensures r >= 0.0
      ensures r >= Subtotal() + tax + shipping - discounts
      ensures r == 0.0 || r == Subtotal() + tax + shipping - discounts
    {
      MaxZero(Subtotal() + tax + shipping - discounts)
    }

    /** `balance_due`: total less the amount paid, never below zero, and never
        above the total when the amount paid is not negative. */
    function BalanceDue(): (r: real)
      reads this
      ensures r >= 0.0
      ensures r >= Total() - amountPaid
      ensures r == 0.0 || r == Total() - amountPaid
      ensures amountPaid >= 0.0 ==> r <= Total()
    {
      MaxZero(Total() - amountPaid)
    }

    /** The wire representation as one table: the four entries always present,
        then every optional one with the value it takes when present, in the
        order `to_dict` adds them. */
    function WireTable(): (t: seq<(string, Option<Json>)>)
      reads this
      ensures |t| == |WireKeys|
    {
      [ ("from", Some(JStr(sender))),
        ("to", Some(JStr(recipient))),
        ("items", Some(JArr(ItemsToWire(items)))),
        ("fields", Some(JObj(DisplayToDict(displayFields)))),
        ("tax", MoneyEntry(tax)),
        ("discounts", MoneyEntry(discounts)),
        ("shipping", MoneyEntry(shipping)),
        ("amount_paid", MoneyEntry(amountPaid)),
        ("date", DateEntry(date)),
        ("due_date", DateEntry(dueDate)) ]
      + TextEntries(OptionalTexts())
      + [ ("custom_fields", if customFields == [] then None else Some(JArr(CustomFieldsToWire(customFields)))) ]
    }

    /** The optional string fields, under their wire keys, in the order `to_dict`
        visits them; the currency counts as unset when it is the default. */
    function OptionalTexts(): (t: seq<(string, Option<string>)>)
      reads this
      ensures |t| == 7
    {
      [ ("number", number),
        ("currency", if currency != DefaultCurrency then Some(currency) else None),
        ("payment_terms", paymentTerms),
        ("logo", logo),
        ("notes", notes),
        ("terms", terms),
        ("ship_to", shipTo) ]
    }

    /** The table has one entry per key, under that key, in the order `to_dict`
        adds them. */
    lemma WireTableKeys()
      ensures forall i | 0 <= i < |WireKeys| :: WireTable()[i].0 == WireKeys[i]
    {
    }

    /** Proof helper for `ToDict`: the table entry by entry, as a sequence whose
        definition stays folded, so the builder's proof sees only the entries it
        extends the map with. */
    lemma WireTableEntries() returns (t: seq<(string, Option<Json>)>)
      ensures Present(t) == Wire()
      ensures |t| == |WireKeys|
      ensures t[..4] == [("from", Some(JStr(sender))), ("to", Some(JStr(recipient))),
                         ("items", Some(JArr(ItemsToWire(items)))), ("fields", Some(JObj(DisplayToDict(displayFields))))]
      ensures t[4] == ("tax", MoneyEntry(tax))
      ensures t[5] == ("discounts", MoneyEntry(discounts))
      ensures t[6] == ("shipping", MoneyEntry(shipping))
      ensures t[7] == ("amount_paid", MoneyEntry(amountPaid))
      ensures t[8] == ("date", DateEntry(date))
      ensures t[9] == ("due_date", DateEntry(dueDate))
      ensures forall j | 0 <= j < 7 :: t[10 + j] == (OptionalTexts()[j].0, TextEntry(OptionalTexts()[j].1))
      ensures t[17] == ("custom_fields", if customFields == [] then None else Some(JArr(CustomFieldsToWire(customFields))))
    {
      t := WireTable();
    }

    /** The wire representation: the present entries of the table. */
    function Wire(): map<string, Json>
      reads this
    {
      Present(WireTable())
    }

    /** Each key of the table is in the wire representation exactly when its
        entry is present, and then with the entry's value. */
    lemma WireLookup(i: nat)
      requires i < |WireKeys|
      ensures WireKeys[i] in Wire() <==> WireTable()[i].1.Some?
      ensures WireTable()[i].1.Some? ==> Wire()[WireKeys[i]] == WireTable()[i].1.value
    {
      WireKeysDistinct();
      WireTableKeys();
      PresentLookup(WireTable(), i);
    }

    /** The parties, the items and the display flags are always sent. */
    lemma WireAlwaysPresent()
      ensures var w := Wire();
        && "from" in w && w["from"] == JStr(sender)
        && "to" in w && w["to"] == JStr(recipient)
        && "items" in w && w["items"] == JArr(ItemsToWire(items))
        && "fields" in w && w["fields"] == JObj(DisplayToDict(displayFields))
    {
      WireLookup(0); WireLookup(1); WireLookup(2); WireLookup(3);
    }

    /** A money field is sent exactly when it is strictly positive. */
    lemma WireMoney()
      ensures var w := Wire();
        && ("tax" in w <==> tax > 0.0) && (tax > 0.0 ==> w["tax"] == JNum(tax))
        && ("discounts" in w <==> discounts > 0.0) && (discounts > 0.0 ==> w["discounts"] == JNum(discounts))
        && ("shipping" in w <==> shipping > 0.0) && (shipping > 0.0 ==> w["shipping"] == JNum(shipping))
        && ("amount_paid" in w <==> amountPaid > 0.0) && (amountPaid > 0.0 ==> w["amount_paid"] == JNum(amountPaid))
    {
      WireLookup(4); WireLookup(5); WireLookup(6); WireLookup(7);
    }

    /** A date is sent exactly when it is set, as its `YYYY-MM-DD` text. */
    lemma WireDates()
      ensures var w := Wire();
        && ("date" in w <==> date.Some?) && (date.Some? ==> w["date"] == JStr(IsoFormat(date.value)))
        && ("due_date" in w <==> dueDate.Some?) && (dueDate.Some? ==> w["due_date"] == JStr(IsoFormat(dueDate.value)))
    {
      WireLookup(8); WireLookup(9);
    }

    /** The currency is sent exactly when it is neither the default nor empty;
        the number and the other optional strings exactly when they are
        non-empty, unstripped. */
    lemma WireTexts()
      ensures var w := Wire();
        && ("currency" in w <==> currency != DefaultCurrency && currency != "")
        && ("currency" in w ==> w["currency"] == JStr(currency))
        && ("number" in w <==> number.Some? && number.value != "")
        && ("number" in w ==> w["number"] == JStr(number.value))
        && ("payment_terms" in w <==> paymentTerms.Some? && paymentTerms.value != "")
        && ("payment_terms" in w ==> w["payment_terms"] == JStr(paymentTerms.value))
        && ("logo" in w <==> logo.Some? && logo.value != "")
        && ("logo" in w ==> w["logo"] == JStr(logo.value))
        && ("notes" in w <==> notes.Some? && notes.value != "")
        && ("notes" in w ==> w["notes"] == JStr(notes.value))
        && ("terms" in w <==> terms.Some? && terms.value != "")
        && ("terms" in w ==> w["terms"] == JStr(terms.value))
        && ("ship_to" in w <==> shipTo.Some? && shipTo.value != "")
        && ("ship_to" in w ==> w["ship_to"] == JStr(shipTo.value))
    {
      WireLookup(10); WireLookup(11); WireLookup(12); WireLookup(13);
      WireLookup(14); WireLookup(15); WireLookup(16);
    }

    /** The custom fields are sent exactly when there are some. */
    lemma WireCustomFields()
      ensures var w := Wire();
        && ("custom_fields" in w <==> customFields != [])
        && (customFields != [] ==> w["custom_fields"] == JArr(CustomFieldsToWire(customFields)))
    {
      WireLookup(17);
    }

    /** Nothing but the eighteen known keys is ever sent. */
    lemma WireKeysKnown()
      ensures forall k | k in Wire() :: k in WireKeys
    {
      forall k | k in Wire()
        ensures k in WireKeys
      {
        PresentKeys(WireTable(), k);
        WireTableKeys();
      }
    }

    /** The subtotal recomputed from the items on the wire is the invoice's
        subtotal; with no tax, shipping or discounts it is also the total. */
    lemma WireItemsGiveTotal()
      ensures "items" in Wire() && Wire()["items"].JArr?
      ensures WireSubtotal(Wire()["items"].elems) == Some(Subtotal())
      ensures tax == 0.0 && shipping == 0.0 && discounts == 0.0 ==> Subtotal() == Total()
    {
      WireLookup(2);
      WireTableKeys();
      assert WireTable()[2] == ("items", Some(JArr(ItemsToWire(items))));
      WireSubtotalMatches(items);
    }

    /** `to_dict`: the four fixed keys, then the positive money fields, the set
        dates, the non-empty optional strings and the custom fields, one key at
        a time. */
    method ToDict() returns (data: map<string, Json>)
      ensures data == Wire()
    {
      ghost var t := WireTableEntries();
      data := map["from" := JStr(sender), "to" := JStr(recipient),
                  "items" := JArr(ItemsToWire(items)), "fields" := JObj(DisplayToDict(displayFields))];
      PresentFixed(t[..4]);
      var optionalFields := OptionalTexts();
      ghost var before := data;
      if tax > 0.0 {
        data := data["tax" := JNum(tax)];
      }
      assert data == Present(t[..5]) by {
        PresentExtend(t, 4, "tax", MoneyEntry(tax), before, data);
      }
      before := data;
      if discounts > 0.0 {
        data := data["discounts" := JNum(discounts)];
      }
      assert data == Present(t[..6]) by {
        PresentExtend(t, 5, "discounts", MoneyEntry(discounts), before, data);
      }
      before := data;
      if shipping > 0.0 {
        data := data["shipping" := JNum(shipping)];
      }
      assert data == Present(t[..7]) by {
        PresentExtend(t, 6, "shipping", MoneyEntry(shipping), before, data);
      }
      before := data;
      if amountPaid > 0.0 {
        data := data["amount_paid" := JNum(amountPaid)];
      }
      assert data == Present(t[..8]) by {
        PresentExtend(t, 7, "amount_paid", MoneyEntry(amountPaid), before, data);
      }
      before := data;
      if date.Some? {
        data := data["date" := JStr(IsoFormat(date.value))];
      }
      assert data == Present(t[..9]) by {
        PresentExtend(t, 8, "date", DateEntry(date), before, data);
      }
      before := data;
      if dueDate.Some? {
        data := data["due_date" := JStr(IsoFormat(dueDate.value))];
      }
      assert data == Present(t[..10]) by {
        PresentExtend(t, 9, "due_date", DateEntry(dueDate), before, data);
      }
      for j := 0 to |optionalFields|
        invariant data == Present(t[..10 + j])
      {
        before := data;
        var (key, value) := optionalFields[j];
        if value.Some? && value.value != "" {
          data := data[key := JStr(value.value)];
        }
        PresentExtend(t, 10 + j, key, TextEntry(value), before, data);
      }
      before := data;
      if customFields != [] {
        data := data["custom_fields" := JArr(CustomFieldsToWire(customFields))];
      }
      assert data == Present(t) by {
        PresentExtend(t, 17, "custom_fields", if customFields == [] then None else Some(JArr(CustomFieldsToWire(customFields))), before, data);
      }
    }
  }

  /** `create_invoice` / `Invoice(sender, recipient)`: fails with the message of
      `__post_init__` when a party is blank; otherwise a fresh invoice with the
      two parties and every other field at its default. */
  method CreateInvoice(sender: string, recipient: string) returns (r: Result<Invoice, string>)
    ensures r.Failure? <==> IsBlank(sender) || IsBlank(recipient)
    ensures r.Failure? ==> Some(r.error) == PartiesError(sender, recipient)
    ensures r.Success? ==> fresh(r.value)
    ensures r.Success? ==> r.value.sender == sender && r.value.recipient == recipient
    ensures r.Success? ==> r.value.items == [] && r.value.customFields == []
    ensures r.Success? ==> r.value.number.None? && r.value.date.None? && r.value.dueDate.None?
    ensures r.Success? ==> r.value.currency == DefaultCurrency && r.value.displayFields == DefaultDisplay
    ensures r.Success? ==> r.value.tax == 0.0 && r.value.discounts == 0.0
                           && r.value.shipping == 0.0 && r.value.amountPaid == 0.0
    ensures r.Success? ==> r.value.shipTo.None? && r.value.paymentTerms.None? && r.value.logo.None?
                           && r.value.notes.None? && r.value.terms.None?
    ensures r.Success? ==> r.value.Total() == 0.0 && r.value.BalanceDue() == 0.0
  {
    var err := PartiesError(sender, recipient);
    if err.Some? {
      return Failure(err.value);
    }
    var inv := new Invoice(sender, recipient);
    return Success(inv);
  }
}

=== FILE: json.dfy ===
/** The JSON values the wire representation and the template store are made of. */
module Json {

  datatype Json =
    | JNull
    | JBool(b: bool)
    | JInt(i: int)
    | JNum(r: real)
    | JStr(s: string)
    | JArr(elems: seq<Json>)
    | JObj(fields: map<string, Json>)
}

=== FILE: package_utils.dfy ===
/** `sanitize_filename` of invoice_generator/utils.py, the version the API
    client and the template store use: replace the invalid characters, strip,
    and when the result is longer than 50 characters shorten its base name so
    that the last extension survives. */
module PackageUtils {
  import opened Wrappers
  import opened Text
  import opened UtilsCommon

  /** The longest file name the sanitiser returns. */
  const MaxLength: nat := 50

  /** The index of the last '.' of `s`, which is where `s.rsplit('.', 1)` splits. */
  function LastDot(s: string): (r: Option<nat>)
    ensures r.None? <==> '.' !in s
    ensures r.Some? ==> r.value < |s| && s[r.value] == '.'
    ensures r.Some? ==> forall i | r.value < i < |s| :: s[i] != '.'
  {
    if s == [] then None
    else if s[|s| - 1] == '.' then Some(|s| - 1)
    else LastDot(s[..|s| - 1])
  }

  /** The last extension of `s` (without its dot), if `s` has a '.'. */
  function Extension(s: string): (r: Option<string>)
    ensures r.Some? ==> '.' !in r.value && |r.value| < |s|
  {
    match LastDot(s)
    case None => None
    case Some(d) => Some(s[d + 1..])
  }

  /** The length cap applied after stripping: a name of at most 50 characters is
      kept; a longer one with a '.' keeps its dot and last extension and loses the
      end of its base name, unless that extension leaves no room for a base; any
      other long name is cut flat at 50 characters. */
  function Fit(s: string): (r: string)
    ensures |r| <= MaxLength
    ensures forall c | c in r :: c in s
  {
    if |s| <= MaxLength then s
    else match LastDot(s)
      case None => s[..MaxLength]
      case Some(d) =>
        var base, ext := s[..d], s[d + 1..];
        var maxBase := MaxLength - |ext| - 1;
        if maxBase > 0 then
          assert forall c | c in base[..maxBase] + "." + ext :: c in s by {
            assert forall c | c in base[..maxBase] :: c in s;
            assert forall c | c in ext :: c in s;
          }
          base[..maxBase] + "." + ext
        else s[..MaxLength]
  }

  /** What `sanitize_filename` returns: at most 50 characters, none of them
      invalid. */
  function Sanitize(name: string): (r: string)
    ensures |r| <= MaxLength
    ensures forall c | c in r :: c !in InvalidChars
  {
    var s := Strip(Replaced(name));
    assert forall c | c in Fit(s) :: c in s;
    Fit(s)
  }

  /** `sanitize_filename`: the replacement loop, then the strip and the length
      cap, which the source writes as expressions. */
  method SanitizeFilename(name: string) returns (safeName: string)
    ensures safeName == Sanitize(name)
    ensures |safeName| <= MaxLength
    ensures forall c | c in safeName :: c !in InvalidChars
  {
    safeName := ReplaceInvalidChars(name);
    safeName := Strip(safeName);
    safeName := Fit(safeName);
  }

  /** A replaced-and-stripped name of at most 50 characters is returned as is. */
  lemma FitShortUnchanged(s: string)
    requires |s| <= MaxLength
    ensures Fit(s) == s
  {
  }

  /** `a + "." + b` splits at the dot between them when `b` has no dot. */
  lemma {:induction false} LastDotOfJoin(a: string, b: string)
    requires '.' !in b
    ensures LastDot(a + "." + b) == Some(|a|)
    decreases |b|
  {
    var s := a + "." + b;
    if b == [] {
      assert s[|s| - 1] == '.';
    } else {
      assert s[|s| - 1] == b[|b| - 1];
      assert s[..|s| - 1] == a + "." + b[..|b| - 1];
      LastDotOfJoin(a, b[..|b| - 1]);
    }
  }

  /** A long name whose last extension is shorter than 49 characters keeps that
      extension: the result is exactly 50 characters, a prefix of the base name,
      a dot, and the same extension. */
  lemma FitKeepsExtension(s: string)
    requires |s| > MaxLength
    requires Extension(s).Some? && |Extension(s).value| < MaxLength - 1
    ensures var ext := Extension(s).value;
      && |Fit(s)| == MaxLength
      && Fit(s) == s[..MaxLength - |ext| - 1] + "." + ext
      && Extension(Fit(s)) == Some(ext)
  {
    var d := LastDot(s).value;
    var ext := s[d + 1..];
    var maxBase := MaxLength - |ext| - 1;
    assert s[..d][..maxBase] == s[..maxBase];
    LastDotOfJoin(s[..maxBase], ext);
  }

  /** A long name without a dot, or whose last extension leaves no room for a
      base name, is cut flat to its first 50 characters. */
  lemma FitFlatCut(s: string)
    requires |s| > MaxLength
    requires Extension(s).None? || |Extension(s).value| >= MaxLength - 1
    ensures Fit(s) == s[..MaxLength]
  {
  }

  /** A name with no invalid characters, no surrounding whitespace and the
      extension ".pdf" still ends in ".pdf" once sanitised, however long. */
  lemma SanitizeKeepsPdf(name: string)
    requires forall i | 0 <= i < |name| :: name[i] !in InvalidChars
    requires |name| > 4 && !IsSpace(name[0]) && name[|name| - 4..] == ".pdf"
    ensures var r := Sanitize(name); |r| >= 4 && r[|r| - 4..] == ".pdf"
    ensures |name| > MaxLength ==> |Sanitize(name)| == MaxLength
  {
    ReplacedUnchanged(name);
    assert name[|name| - 1] == 'f';
    StripUnchanged(name);
    assert Sanitize(name) == Fit(name);
    FitKeepsPdf(name);
  }

  /** The length cap keeps a final ".pdf". */
  lemma FitKeepsPdf(s: string)
    requires |s| > 4 && s[|s| - 4..] == ".pdf"
    ensures var r := Fit(s); |r| >= 4 && r[|r| - 4..] == ".pdf"
    ensures |s| > MaxLength ==> |Fit(s)| == MaxLength
  {
    assert s == s[..|s| - 4] + "." + "pdf";
    LastDotOfJoin(s[..|s| - 4], "pdf");
    if |s| > MaxLength {
      FitKeepsExtension(s);
    } else {
      FitShortUnchanged(s);
    }
  }
}

=== FILE: root_utils.dfy ===
/** `sanitize_filename` of the top-level utils.py: the same replacement and
    strip as the package version, then a flat cut at 50 characters with no
    care for the extension. */
module RootUtils {
  import opened Text
  import opened UtilsCommon
  import PackageUtils

  const MaxLength: nat := 50

  /** What `sanitize_filename` returns: the first min(50, n) characters of the
      replaced and stripped name of length n. */
  function Sanitize(name: string): (r: string)
    ensures |r| <= MaxLength
    ensures var s := Strip(Replaced(name));
      && |r| == (if |s| <= MaxLength then |s| else MaxLength)
      && r == s[..|r|]
  {
    var s := Strip(Replaced(name));
    if |s| <= MaxLength then s else s[..MaxLength]
  }

  /** `sanitize_filename`: the replacement loop, then `strip()[:50]`. */
  method SanitizeFilename(name: string) returns (safeName: string)
    ensures safeName == Sanitize(name)
    ensures |safeName| <= MaxLength
    ensures forall c | c in safeName :: c !in InvalidChars
  {
    safeName := ReplaceInvalidChars(name);
    var stripped := Strip(safeName);
    safeName := if |stripped| <= MaxLength then stripped else stripped[..MaxLength];
    assert forall c | c in safeName :: c in stripped;
  }

  /** Both sanitisers agree on every name that is at most 50 characters long once
      replaced and stripped, and on every longer one that has no '.'. */
  lemma AgreesWithPackageVersion(name: string)
    requires var s := Strip(Replaced(name)); |s| <= MaxLength || '.' !in s
    ensures Sanitize(name) == PackageUtils.Sanitize(name)
  {
    var s := Strip(Replaced(name));
    if |s| > MaxLength {
      PackageUtils.FitFlatCut(s);
    }
  }

  /** The flat cut loses the extension: a name of 54 characters or more whose
      only '.' starts its final ".pdf" comes back with no '.' at all, where the
      package version keeps the ".pdf". */
  lemma FlatCutDropsExtension(name: string)
    requires forall i | 0 <= i < |name| :: name[i] !in InvalidChars
    requires |name| >= MaxLength + 4 && !IsSpace(name[0]) && name[|name| - 4..] == ".pdf"
    requires '.' !in name[..|name| - 4]
    ensures '.' !in Sanitize(name)
    ensures var p := PackageUtils.Sanitize(name); |p| >= 4 && p[|p| - 4..] == ".pdf"
  {
    ReplacedUnchanged(name);
    assert name[|name| - 1] == 'f';
    StripUnchanged(name);
    assert Sanitize(name) == name[..|name| - 4][..MaxLength];
    PackageUtils.SanitizeKeepsPdf(name);
  }
}

=== FILE: text.dfy ===
/** The pieces of Python's `str` that the core relies on: `isspace`, `strip`,
    `in`, and the decimal rendering of integers used by f-strings and by
    `date.strftime`/`date.isoformat`. */
module Text {

  /** Python's `str.isspace` for one character: the Unicode code points with
      bidirectional class WS, B or S, or general category Zs. */
  predicate IsSpace(c: char) {
    var n := c as int;
    (9 <= n <= 13) || (28 <= n <= 32) || n == 0x85 || n == 0xA0 || n == 0x1680
    || (0x2000 <= n <= 0x200A) || n == 0x2028 || n == 0x2029 || n == 0x202F
    || n == 0x205F || n == 0x3000
  }

  /** Drops the leading whitespace: what is left is a suffix of `s`, all that was
      dropped is whitespace, and what is left does not start with whitespace. */
  function TrimStart(s: string): (r: string)
    ensures |r| <= |s| && r == s[|s| - |r|..]
    ensures forall i | 0 <= i < |s| - |r| :: IsSpace(s[i])
    ensures r == [] || !IsSpace(r[0])
  {
    if |s| > 0 && IsSpace(s[0]) then TrimStart(s[1..]) else s
  }

  /** Drops the trailing whitespace: what is left is a prefix of `s`, all that was
      dropped is whitespace, and what is left does not end with whitespace. */
  function TrimEnd(s: string): (r: string)
    ensures |r| <= |s| && r == s[..|r|]
    ensures forall i | |r| <= i < |s| :: IsSpace(s[i])
    ensures r == [] || !IsSpace(r[|r| - 1])
  {
    if |s| > 0 && IsSpace(s[|s| - 1]) then TrimEnd(s[..|s| - 1]) else s
  }

  /** Python's `str.strip()` with no argument. */
  function Strip(s: string): (r: string)
    ensures |r| <= |s|
    ensures r == [] || (!IsSpace(r[0]) && !IsSpace(r[|r| - 1]))
    ensures forall c | c in r :: c in s
  {
    var t := TrimStart(s);
    var r := TrimEnd(t);
    assert forall c | c in r :: c in t;
    r
  }

  /** Python's `not s.strip()`: the string is empty or whitespace only. */
  predicate IsBlank(s: string) {
    Strip(s) == []
  }

  /** A string is blank exactly when every one of its characters is whitespace. */
  lemma BlankIffAllSpace(s: string)
    ensures IsBlank(s) <==> forall i | 0 <= i < |s| :: IsSpace(s[i])
  {
    var t := TrimStart(s);
    if IsBlank(s) {
      assert TrimEnd(t) == [];
    }
  }

  /** Stripping changes nothing when the string neither starts nor ends with whitespace. */
  lemma StripUnchanged(s: string)
    requires s == [] || (!IsSpace(s[0]) && !IsSpace(s[|s| - 1]))
    ensures Strip(s) == s
  {
  }

  // ---------------------------------------------------------------------------
  // Decimal digits

  function DigitChar(d: nat): (c: char)
    requires d < 10
    ensures '0' <= c <= '9'
  {
    (48 + d) as char
  }

  predicate IsDigit(c: char) {
    '0' <= c <= '9'
  }

  function DigitValue(c: char): (d: nat)
    requires IsDigit(c)
    ensures d < 10 && DigitChar(d) == c
  {
    c as int - 48
  }

  function Pow10(w: nat): (p: nat)
    ensures p >= 1
  {
    if w == 0 then 1 else 10 * Pow10(w - 1)
  }

  /** The `w` lowest decimal digits of `n`, most significant first, padded with
      '0' on the left: `%0wd` when `n < 10^w`. */
  function PadDigits(n: nat, w: nat): (r: string)
    ensures |r| == w
    ensures forall i | 0 <= i < |r| :: IsDigit(r[i])
  {
    if w == 0 then [] else PadDigits(n / 10, w - 1) + [DigitChar(n % 10)]
  }

  /** The value of a string of decimal digits. */
  function DigitsValue(s: string): nat
    requires forall i | 0 <= i < |s| :: IsDigit(s[i])
  {
    if s == [] then 0 else 10 * DigitsValue(s[..|s| - 1]) + DigitValue(s[|s| - 1])
  }

  /** Python's `str(n)` for a non-negative integer: no leading zeros. */
  function NatToString(n: nat): (r: string)
    ensures 1 <= |r|
    ensures forall i | 0 <= i < |r| :: IsDigit(r[i])
    ensures |r| > 1 ==> r[0] != '0'
  {
    if n < 10 then [DigitChar(n)] else NatToString(n / 10) + [DigitChar(n % 10)]
  }

  /** Reading back `w` padded digits of a number below 10^w gives the number. */
  lemma {:induction false} PadDigitsValue(n: nat, w: nat)
    requires n < Pow10(w)
    ensures DigitsValue(PadDigits(n, w)) == n
  {
    if w > 0 {
      var s := PadDigits(n, w);
      assert s[..|s| - 1] == PadDigits(n / 10, w - 1);
      assert n / 10 < Pow10(w - 1);
      PadDigitsValue(n / 10, w - 1);
    }
  }

  /** Reading back `str(n)` gives `n`. */
  lemma {:induction false} NatToStringValue(n: nat)
    ensures DigitsValue(NatToString(n)) == n
  {
    if n >= 10 {
      var s := NatToString(n);
      assert s[..|s| - 1] == NatToString(n / 10);
      NatToStringValue(n / 10);
    }
  }

  /** `str` is injective on non-negative integers. */
  lemma NatToStringInjective(a: nat, b: nat)
    requires NatToString(a) == NatToString(b)
    ensures a == b
  {
    NatToStringValue(a);
    NatToStringValue(b);
  }
}

=== FILE: utils_common.dfy ===
/** The code that invoice_generator/utils.py and the top-level utils.py share
    line for line: the character replacement at the start of
    `sanitize_filename`, and `prepare_for_json_serialization`. Each of the two
    sanitisers (modules PackageUtils and RootUtils) adds its own truncation. */
module UtilsCommon {
  import opened Wrappers
  import opened Json
  import opened Dates

  /** The characters a file name may not contain, in the order they are replaced. */
  const InvalidChars: string := "<>:\"/\\|?*"

  /** Python's `s.replace(c, sub)` for one character. */
  function ReplaceChar(s: string, c: char, sub: char): (r: string)
    ensures |r| == |s|
    ensures forall i | 0 <= i < |s| :: r[i] == (if s[i] == c then sub else s[i])
  {
    seq(|s|, i requires 0 <= i < |s| => if s[i] == c then sub else s[i])
  }

  /** `s` with every character of `cs` turned into '_'. */
  function ReplacedBy(s: string, cs: string): (r: string)
    ensures |r| == |s|
    ensures forall i | 0 <= i < |s| :: r[i] == (if s[i] in cs then '_' else s[i])
  {
    seq(|s|, i requires 0 <= i < |s| => if s[i] in cs then '_' else s[i])
  }

  /** The name once every invalid character has been turned into '_'. */
  function Replaced(s: string): (r: string)
    ensures |r| == |s|
    ensures forall c | c in r :: c !in InvalidChars
  {
    ReplacedBy(s, InvalidChars)
  }

  /** A name with no invalid character is left as it is. */
  lemma ReplacedUnchanged(s: string)
    requires forall i | 0 <= i < |s| :: s[i] !in InvalidChars
    ensures Replaced(s) == s
  {
  }

  /** The replacement loop: each of the nine invalid characters is replaced
      throughout the name in turn. The name keeps its length; each position
      keeps its character unless that is invalid, in which case it holds '_'. */
  method ReplaceInvalidChars(name: string) returns (safe: string)
    ensures safe == Replaced(name)
    ensures |safe| == |name|
    ensures forall i | 0 <= i < |name| ::
      safe[i] == (if name[i] in InvalidChars then '_' else name[i])
    ensures forall c | c in safe :: c !in InvalidChars
  {
    safe := name;
    for j := 0 to |InvalidChars|
      invariant safe == ReplacedBy(name, InvalidChars[..j])
    {
      ReplaceStep(name, InvalidChars[..j], InvalidChars[j]);
      safe := ReplaceChar(safe, InvalidChars[j], '_');
      assert InvalidChars[..j] + [InvalidChars[j]] == InvalidChars[..j + 1];
    }
    assert InvalidChars[..|InvalidChars|] == InvalidChars;
  }

  /** Replacing one more character extends the set of replaced characters,
      because '_' is never among them. */
  lemma ReplaceStep(s: string, cs: string, c: char)
    requires '_' !in cs && c != '_'
    ensures ReplaceChar(ReplacedBy(s, cs), c, '_') == ReplacedBy(s, cs + [c])
  {
  }

  // ---------------------------------------------------------------------------
  // prepare_for_json_serialization

  /** A value of the flat field map handed to the template store: a JSON value,
      one of the objects that have an `isoformat()` method, or any other object,
      known here only by a description. */
  datatype FieldValue =
    | Plain(json: Json)
    | Other(description: string)
    | DateValue(date: ValidDate)
    | DateTimeValue(date: ValidDate, time: ValidClock)
    | TimeValue(time: ValidClock)

  /** `v.isoformat()` when `v` has that method. */
  function IsoText(v: FieldValue): Option<string>
  {
    match v
    case Plain(_) => None
    case Other(_) => None
    case DateValue(d) => Some(IsoFormat(d))
    case DateTimeValue(d, t) => Some(IsoFormat(d) + "T" + ClockIsoFormat(t))
    case TimeValue(t) => Some(ClockIsoFormat(t))
  }

  /** Fills a new map entry by entry: the keys are kept, a date, datetime or time
      becomes its ISO string, every other value is copied untouched, so no value
      with an `isoformat()` method is left. */
  method PrepareForJson(data: map<string, FieldValue>) returns (serializable: map<string, FieldValue>)
    ensures serializable.Keys == data.Keys
    ensures forall k | k in data && IsoText(data[k]).Some? ::
      serializable[k] == Plain(JStr(IsoText(data[k]).value))
    ensures forall k | k in data && IsoText(data[k]).None? :: serializable[k] == data[k]
    ensures forall k | k in serializable :: IsoText(serializable[k]).None?
  {
    serializable := map[];
    var rest := data.Keys;
    while rest != {}
      invariant rest <= data.Keys
      invariant serializable.Keys == data.Keys - rest
      invariant forall k | k in serializable && IsoText(data[k]).Some? ::
        serializable[k] == Plain(JStr(IsoText(data[k]).value))
      invariant forall k | k in serializable && IsoText(data[k]).None? :: serializable[k] == data[k]
      invariant forall k | k in serializable :: IsoText(serializable[k]).None?
      decreases rest
    {
      var key :| key in rest;
      var value := data[key];
      match value {
        case DateValue(d) =>
          serializable := serializable[key := Plain(JStr(IsoFormat(d)))];
        case DateTimeValue(d, t) =>
          serializable := serializable[key := Plain(JStr(IsoFormat(d) + "T" + ClockIsoFormat(t)))];
        case TimeValue(t) =>
          serializable := serializable[key := Plain(JStr(ClockIsoFormat(t)))];
        case Plain(_) =>
          serializable := serializable[key := value];
        case Other(_) =>
          serializable := serializable[key := value];
      }
      rest := rest - {key};
    }
  }
}

=== FILE: wrappers.dfy ===
/** Option and Result, the two failure-carrying types the model uses in place of
    Python's `None` and of a raised `ValueError`. */
module Wrappers {

  datatype Option<+T> = None | Some(value: T)

  datatype Result<+T, +E> = Success(value: T) | Failure(error: E)
}
